=== FILE: README.md ===
# Business acquisition analyzer — a Dafny model of its scoring pipeline

The extension reads a business-for-sale listing page (transentreprise or
cessionpme) and collects six fields: title, location, price, revenue, head
count and description. It posts them to a scoring server, which asks a
language model for a `Note: <n>` score and an explanation. The extension then
shows the answer and appends it to a stored history, which feeds two charts.

This project models the logic of that pipeline as pure Dafny functions over
immutable data, and proves what the code promises about it:

- `Text`, `Numerals`, `Js`, `Wrappers`: `trim`, `includes`, the `\s` and
  `\d` classes, `parseInt` of a digit run, `${n}`, and JavaScript truthiness
  and string coercion of `undefined` / `null` / string fields.
- `Page`: a listing page as its host name, the sibling groups holding its
  `<dt>` elements and a
  selector → `innerText` oracle. It also holds `getDtDdValue`, which
  popup.js and background.js share.
- `Extraction` (background.js): the `selectors` table, `extractData` and
  the message listener.
- `Popup` (popup.js): `analyzePage`, the completeness gate, the answer gate,
  `storeAnalysis`, `getScoreColor` and the chart series.
- `Markup`: `cleanExplanation` (server.js) and `sanitizeExplanation`
  (popup.js).
- `Server` (server.js): the parse of the model's reply into score and
  explanation.
- `Route` (server.js): the `/analyze` handler, which covers the site gate,
  the prompt and the 200 / 400 / 500 responses.
- `Pipeline`: the popup and the server together.
- `Fixtures`: a worked listing page and a worked model reply.

Inputs the code gets from its environment are parameters:

- the page, as a `Document`;
- the stored history and stored site configuration;
- the server, as a function from record to answer;
- the set of sites with a configuration file;
- the language model, as a function from prompt to completion.

The model follows the code as written; in particular:

- A direct field is the untrimmed `innerText`, and `undefined` (not `null`)
  when the selector misses.
- The score is not range-checked: `Note: 150` scores 150.
- Sanitizing is not idempotent (`Markup.SanitizeNotIdempotent`).
- The empty cessionpme entry counts as a configured site.

## Model

| member | source | states |
|---|---|---|
| Text.Trim | business-acquisition-analyzer-extension-ai-frontend/popup.js:82 | `trim` returns the slice that starts at the first non-space character; everything cut off at either end is white space; the result has nothing left to trim |
| Text.TrimUnique | business-acquisition-analyzer-extension-ai-frontend/popup.js:82 | whatever white space surrounds a trimmed core, trimming returns exactly that core |
| Text.ContainsAt | business-acquisition-analyzer-extension-ai-frontend/popup.js:79 | `includes` holds exactly when the label occurs at some offset of the text |
| Numerals.DigitsValue | business-acquisition-analyzer-extension-backend/server/server.js:89 | `parseInt(digits, 10)` of a run of n digits is a natural number below 10^n; with `LeadingZeroIgnored` and `DecimalRoundTrip` this fixes the value of every digit run |
| Numerals.LeadingZeroIgnored | business-acquisition-analyzer-extension-backend/server/server.js:89 | a leading `0` does not change the value `parseInt(digits, 10)` reads |
| Numerals.ZeroPaddedScore | business-acquisition-analyzer-extension-backend/server/server.js:88-89 | the digit run `072` of a `Note: 072` reply reads as 72 |
| Numerals.Decimal | business-acquisition-analyzer-extension-ai-frontend/popup.js:216 | `${n}` prints at least one digit and only digits, with a leading `0` exactly when n is zero |
| Numerals.DecimalRoundTrip | business-acquisition-analyzer-extension-backend/server/server.js:89 | `parseInt` of the numeral `${n}` prints gives back `n` |
| Numerals.DecimalInjective | business-acquisition-analyzer-extension-ai-frontend/popup.js:216 | distinct numbers print as distinct numerals |
| Page.FirstAnswer | business-acquisition-analyzer-extension-ai-frontend/popup.js:78-85 | the walk over the `dt`s returns an answering `dt` with no answering `dt` before it, or none when no `dt` from the start position answers |
| Page.DtDdValue | business-acquisition-analyzer-extension-ai-frontend/popup.js:76-87 | `null` exactly when no `dt` contains the label and is followed by a `DD`; otherwise the trimmed text of the `DD` after the first such `dt` |
| Page.DtDdValueAtStart | business-acquisition-analyzer-extension-ai-frontend/popup.js:79-83 | a page whose first `dt` answers gives that `dt`'s `DD`, trimmed |
| Page.DtDdValueFirstWins | business-acquisition-analyzer-extension-ai-frontend/popup.js:78-83 | once a `dt` answers, later `dt`s and later lists cannot change the value |
| Page.DtDdValueSkipsUnanswered | business-acquisition-analyzer-extension-ai-frontend/popup.js:78-86 | lists in which no `dt` answers are passed over and the value comes from the rest of the page |
| Extraction.DirectField | business-acquisition-analyzer-extension-ai-frontend/background.js:59-64 | a direct field is never `null`: it is the untrimmed text of the selector's first match, or `undefined` when nothing matches |
| Extraction.LabelField | business-acquisition-analyzer-extension-ai-frontend/background.js:28-39 | a label field is never `undefined`: the trimmed text of the `DD` after the first `dt` that contains the label and is followed by a `DD`, or `null` exactly when no such `dt` exists |
| Extraction.ExtractWith | business-acquisition-analyzer-extension-ai-frontend/background.js:58-65 | the record has exactly the six listing fields (no `site`); title, location and description are each the untrimmed text of their own selector's match, `undefined` when it misses; price, revenue and head count are each the trimmed `DD` after the first `dt` answering their own label, `null` when none answers |
| Extraction.ExtractData | business-acquisition-analyzer-extension-ai-frontend/background.js:56-71 | `null` exactly when the configured site is not a key of the `selectors` table; otherwise the record read with that site's locators |
| Extraction.CessionpmeExtractsEmptyRecord | business-acquisition-analyzer-extension-ai-frontend/background.js:50-57 | the empty cessionpme entry still yields a record, whose locators all read as "undefined": direct fields `undefined` and label fields `null` on a page without such elements |
| Extraction.OnMessage | business-acquisition-analyzer-extension-ai-frontend/background.js:1-25 | an "analyze" message gets exactly one reply (the missing-configuration error, the injection error, or the extracted data) unless a configuration is stored and the sender has no tab, in which case `sender.tab.id` throws and nothing is sent; any other message gets no reply |
| Popup.AnalyzePage | business-acquisition-analyzer-extension-ai-frontend/popup.js:67-105 | `null` exactly when the host is neither supported host name; otherwise the mapped site id and the fields read with the fixed transentreprise locators |
| Popup.AnalyzePageAgreesWithExtraction | business-acquisition-analyzer-extension-ai-frontend/popup.js:89-98 | on a transentreprise page the popup and background.js read the same six fields |
| Popup.UnansweredLabelBlocks | business-acquisition-analyzer-extension-ai-frontend/popup.js:11 | a page where price, revenue or head count has no answering `dt` never passes the completeness gate |
| Popup.Complete | business-acquisition-analyzer-extension-ai-frontend/popup.js:11 | the gate passes exactly when there is a record and each of its six fields is a non-empty string (none `null`, `undefined` or empty) |
| Popup.Accepts | business-acquisition-analyzer-extension-ai-frontend/popup.js:40 | the answer passes exactly when its score is present (a number or `null`) and its explanation is a non-empty string |
| Popup.Click | business-acquisition-analyzer-extension-ai-frontend/popup.js:8-63 | nothing is sent unless the record is complete; an answer is shown exactly when it is `ok` with a defined score and a non-empty explanation, and then the explanation is shown sanitized and stored unsanitized with the record and score; otherwise nothing is stored and the error shown starts with the analysis-error prefix |
| Popup.AcceptedAnswerStored | business-acquisition-analyzer-extension-ai-frontend/popup.js:40-56 | an accepted answer for a complete record is shown sanitized and appended to the history as sent |
| Popup.StoreAnalysis | business-acquisition-analyzer-extension-ai-frontend/popup.js:156-166 | the list written back is the list read (empty when missing) with exactly one new analysis at its end |
| Popup.StoreAllAppends | business-acquisition-analyzer-extension-ai-frontend/popup.js:156-166 | successive stores keep every earlier analysis and add the new ones in order |
| Popup.ScoreColor | business-acquisition-analyzer-extension-ai-frontend/popup.js:111-119 | green exactly from 75, orange exactly from 50 up to 74, red exactly below 50 |
| Popup.ScoreColorMonotone | business-acquisition-analyzer-extension-ai-frontend/popup.js:111-119 | a higher score never gets a lower colour band |
| Popup.ColorOf | business-acquisition-analyzer-extension-ai-frontend/popup.js:226 | a numeric score gets its band colour, and a `null` or missing score is red |
| Popup.Labels | business-acquisition-analyzer-extension-ai-frontend/popup.js:216 | one label per stored analysis, the `i`-th being `Analyse i+1` |
| Popup.Scores | business-acquisition-analyzer-extension-ai-frontend/popup.js:217 | one score per stored analysis, in stored order |
| Popup.BarColors | business-acquisition-analyzer-extension-ai-frontend/popup.js:226 | one bar colour per stored analysis, the colour of its score |
| Popup.SeriesLabelInjective | business-acquisition-analyzer-extension-ai-frontend/popup.js:216 | `Analyse ${m + 1}` and `Analyse ${n + 1}` differ whenever m and n do |
| Popup.LabelsDistinct | business-acquisition-analyzer-extension-ai-frontend/popup.js:216 | no two points of a series share a label |
| Popup.SeriesAfterStore | business-acquisition-analyzer-extension-ai-frontend/popup.js:159-163 | storing an analysis extends the label, score and colour series by one point and leaves the earlier points unchanged |
| Markup.RemoveBold | business-acquisition-analyzer-extension-backend/server/server.js:22 | removing `**` pairs leaves no `**` behind, keeps a leading non-star, and leaves text without a star unchanged |
| Markup.RemoveBoldDeletesOnlyStars | business-acquisition-analyzer-extension-backend/server/server.js:22 | removing `**` deletes characters only, and only stars: the result is a subsequence that keeps every other character |
| Markup.RemoveBoldFixedPoint | business-acquisition-analyzer-extension-backend/server/server.js:22 | text with no `**` is left unchanged |
| Markup.RemoveBoldSplits | business-acquisition-analyzer-extension-backend/server/server.js:22 | a `**` that does not continue a star before it is removed, and the text on either side of it is cleaned independently: `RemoveBold(a + "**" + b) == RemoveBold(a) + RemoveBold(b)` |
| Markup.RemoveBoldAvoids | business-acquisition-analyzer-extension-backend/server/server.js:22 | removing `**` introduces no character that was not in the input |
| Markup.RemoveHeadings | business-acquisition-analyzer-extension-backend/server/server.js:22 | text with no `#` is returned unchanged |
| Markup.RemoveHeadingsLeftmost | business-acquisition-analyzer-extension-backend/server/server.js:22 | everything before the leftmost `###`+white-space marker is copied unchanged and the scan resumes right after that marker; with no marker the whole text is copied |
| Markup.NoHeadingFixedPoint | business-acquisition-analyzer-extension-backend/server/server.js:22 | text with no `###`+white-space marker anywhere is unchanged, so a `#` that starts no marker survives |
| Markup.RemoveHeadingsSplits | business-acquisition-analyzer-extension-backend/server/server.js:22 | a `###` plus one white-space character that does not continue a `#` before it is removed, and the text on either side is cleaned independently |
| Markup.CleanExplanationDropsBold | business-acquisition-analyzer-extension-backend/server/server.js:21-23 | in text without `#`, a bold marker is dropped from the cleaned explanation and nothing around it changes |
| Markup.CleanExplanationDropsHeading | business-acquisition-analyzer-extension-backend/server/server.js:21-23 | in text without `*`, a heading marker `###`+white space is dropped from the cleaned explanation and nothing around it changes |
| Markup.RemoveHeadingsDeletesOnlyMarkers | business-acquisition-analyzer-extension-backend/server/server.js:22 | removing `###`+white space deletes characters only, and only `#` and white space |
| Markup.CleanExplanationFixedPoint | business-acquisition-analyzer-extension-backend/server/server.js:21-23 | text with no `**` and no `###`+white-space marker is cleaned to itself, whatever single stars and `#` it holds |
| Markup.SharpSurvives | business-acquisition-analyzer-extension-backend/server/server.js:22 | `"C#"` is cleaned to itself: a lone `#` is not deleted |
| Markup.CleanExplanation | business-acquisition-analyzer-extension-backend/server/server.js:21-23 | the cleaned text is a subsequence of the input that keeps every character other than `*`, `#` and white space, and text with neither `*` nor `#` passes through unchanged; which characters go is pinned by `RemoveBoldSplits` and `RemoveBoldFixedPoint` for `**` and by `RemoveHeadingsLeftmost` and `NoHeadingFixedPoint` for `###`+white space |
| Markup.CleanHeadingLine | business-acquisition-analyzer-extension-backend/server/server.js:22 | a `### ` heading line loses its marker and nothing else |
| Markup.HeadingRemovalNotIdempotent | business-acquisition-analyzer-extension-backend/server/server.js:22 | removing `### ` can assemble a new marker: `#### ## ` becomes `### `, and a second pass gives the empty text |
| Markup.BreaksToHtml | business-acquisition-analyzer-extension-ai-frontend/popup.js:108 | neither `\r` nor `\n` is left in the result |
| Markup.BreaksToHtmlNoBreaks | business-acquisition-analyzer-extension-ai-frontend/popup.js:108 | no `\r` or `\n` survives the replacement |
| Markup.BreaksToHtmlPlain | business-acquisition-analyzer-extension-ai-frontend/popup.js:108 | text without line breaks is unchanged |
| Markup.BreaksToHtmlPrefix | business-acquisition-analyzer-extension-ai-frontend/popup.js:108 | text without line breaks is copied through whatever follows it |
| Markup.BreaksToHtmlJoin | business-acquisition-analyzer-extension-ai-frontend/popup.js:108 | lines separated throughout by one kind of line break (`\r\n`, `\r` or `\n`) come out separated by exactly one `<br>` per break; `BreakThenText` states that a `\r\n` pair is read as one break |
| Markup.SanitizeExplanation | business-acquisition-analyzer-extension-ai-frontend/popup.js:107-109 | the sanitized text holds no line break, and text with no `*`, `#`, `\r` or `\n` is unchanged |
| Markup.SanitizeJoin | business-acquisition-analyzer-extension-ai-frontend/popup.js:108 | plain lines joined by one kind of line break are shown joined by `<br>` |
| Markup.SanitizeNotIdempotent | business-acquisition-analyzer-extension-ai-frontend/popup.js:108 | sanitizing is not idempotent: `*### *` becomes `**`, which a second pass turns into the empty text |
| Server.FindNote | business-acquisition-analyzer-extension-backend/server/server.js:88 | the search finds the leftmost position where `Note:`, optional white space and a digit occur, or reports that there is none |
| Server.ParseReply | business-acquisition-analyzer-extension-backend/server/server.js:85-100 | the score is `null` exactly when the trimmed reply has no `Note:` followed by optional white space and a digit |
| Server.ParseReplyLeftmost | business-acquisition-analyzer-extension-backend/server/server.js:85-91 | with a leftmost match, the score is the value of its digit run and the explanation is the cleaned, trimmed text around the deleted `Note:`+digits+white-space segment |
| Server.ParseReplyTrim | business-acquisition-analyzer-extension-backend/server/server.js:85 | the parse sees only the trimmed reply |
| Server.NoteAtStart | business-acquisition-analyzer-extension-backend/server/server.js:88 | in a text that opens with `Note: ` and a digit run, the leftmost match is at 0 and captures exactly that run |
| Server.ParseLeadingNote | business-acquisition-analyzer-extension-backend/server/server.js:85-91 | a trimmed reply `Note: <digits><white space><rest>` scores the digits and explains the cleaned `rest` |
| Server.ReplyRoundTrip | business-acquisition-analyzer-extension-backend/server/server.js:85-91 | a reply in the requested format, `Note: <n>`, a line break and a trimmed body, parses back to `n` and the cleaned body, or the body itself when it has no `*` or `#` |
| Server.HeadingReply | business-acquisition-analyzer-extension-backend/server/server.js:90-91 | an explanation that opens with a `### ` heading line loses only the marker |
| Server.ExampleReply | business-acquisition-analyzer-extension-backend/server/server.js:85-91 | `Note: 72\n### Explication\nBon potentiel.` parses to 72 and `Explication\nBon potentiel.` |
| Server.ScoreAboveHundredAccepted | business-acquisition-analyzer-extension-backend/server/server.js:89 | no range check: `Note: 150` scores 150 |
| Server.NoNoteNoScore | business-acquisition-analyzer-extension-backend/server/server.js:88-89 | a reply that never mentions `Note:` has no score |
| Route.LineHoldsField | business-acquisition-analyzer-extension-backend/server/server.js:60-65 | each field line, with its label and its value verbatim, sits at its offset in the run of field lines |
| Route.LinesInOrder | business-acquisition-analyzer-extension-backend/server/server.js:60-65 | the field lines come in the order of the fields |
| Route.PromptFramed | business-acquisition-analyzer-extension-backend/server/server.js:58-72 | the prompt starts with the fixed instructions and ends with the requested answer format, whatever the fields hold |
| Route.PromptCarriesFields | business-acquisition-analyzer-extension-backend/server/server.js:58-72 | each of the six fields appears verbatim in the prompt on its labelled line, in the order description, title, location, price, revenue, head count |
| Route.FirstContent | business-acquisition-analyzer-extension-backend/server/server.js:84-103 | the text parsed is the first choice's content; without `choices`, with an empty `choices` or with a failed call there is an error detail instead |
| Route.Analyze | business-acquisition-analyzer-extension-backend/server/server.js:40-108 | an unknown site gets 400 and no prompt is sent; otherwise the prompt is sent and the answer is 200 with the parsed score and explanation exactly when the first choice has a score, else 500 with the analysis error |
| Route.FormattedReplyScored | business-acquisition-analyzer-extension-backend/server/server.js:84-97 | a first choice in the requested format is answered with 200, its score and its cleaned explanation; later choices are ignored |
| Route.UnscoredReplyFails | business-acquisition-analyzer-extension-backend/server/server.js:96-106 | a first choice without `Note:` is answered with 500 and the cannot-parse detail; there is no default score |
| Pipeline.RequestOf | business-acquisition-analyzer-extension-backend/server/server.js:44 | the request the handler destructures carries the popup's site and the six fields the record holds |
| Pipeline.Delivered | business-acquisition-analyzer-extension-ai-frontend/popup.js:32-37 | the popup's answer is `ok` exactly for status 200, with the body's score and explanation |
| Pipeline.BackendScores | business-acquisition-analyzer-extension-backend/server/server.js:84-97 | for a known site and a formatted reply the popup receives the score and the cleaned explanation |
| Pipeline.ScoredRecordStored | business-acquisition-analyzer-extension-ai-frontend/popup.js:40-56 | a complete record whose reply is formatted and free of markdown ends in exactly one new stored analysis (the record, the score, the explanation as written), shown with `<br>` for line breaks |
| Pipeline.UnconfiguredSiteRefused | business-acquisition-analyzer-extension-backend/server/server.js:52-56 | a site without a configuration is refused with 400, the model is never asked, the popup shows the not-ok error and nothing is stored |
| Pipeline.BackendScoresBare | business-acquisition-analyzer-extension-backend/server/server.js:90-97 | a reply that is only the score line gives 200 with the score and an empty explanation |
| Pipeline.ScoreWithoutExplanationRejected | business-acquisition-analyzer-extension-ai-frontend/popup.js:40-58 | the popup rejects that answer because its explanation is empty: it shows the invalid-reply error and stores nothing |
| Pipeline.RejectedAnswer | business-acquisition-analyzer-extension-ai-frontend/popup.js:40-62 | an `ok` answer with an empty explanation shows the invalid-reply error and stores nothing |
| Fixtures.DtWithoutDdSkipped | business-acquisition-analyzer-extension-ai-frontend/popup.js:78-85 | a `dt` containing the label but followed by another `dt` is skipped, and the next answering `dt` gives the trimmed value |
| Fixtures.ListingRevenue | business-acquisition-analyzer-extension-ai-frontend/popup.js:78-83 | on the worked page the revenue comes from the `C.A.` `dt`, past the `Prix` one |
| Fixtures.ListingPageAnalyzed | business-acquisition-analyzer-extension-ai-frontend/popup.js:89-100 | the worked transentreprise page yields its record, which passes the completeness gate |
| Fixtures.ExampleExplanationShown | business-acquisition-analyzer-extension-ai-frontend/popup.js:108 | the worked explanation is shown as `Explication<br>Bon potentiel.` |
| Fixtures.ListingPageScored | business-acquisition-analyzer-extension-ai-frontend/popup.js:8-56 | the worked page, with a known site and a formatted reply, ends with one stored analysis and the explanation shown |

## Left out

- The CSS selector engine, `querySelector` and `innerText` rendering: a selector → text map stands for them.
- `chrome.tabs`, `chrome.scripting`, `chrome.storage` and `chrome.runtime`: their results are parameters (the page, the stored history, the stored site configuration, and, for background.js's listener, the injection outcome).
- Popup.Click: a failed `executeScript` in the popup is not modelled. Its callback then receives `undefined` and `result[0]` throws before the completeness gate, so nothing is shown, sent or stored; `Click` starts from the injected function's result.
- `fetch`, express, body-parser and cors: the server is a function from record to answer. JSON serialisation of error bodies is not modelled; the popup receives the error text as a parameter.
- The OpenAI call: a function from prompt to completion. Its model name, system message and token limit are not modelled.
- `loadConfig`: the configuration files are reduced to the set of site ids that have one; their contents are never used.
- A `message.content` that is not a string, and a body that `response.json()` cannot parse: the model assumes the content is a string and the JSON is well formed.
- The read-modify-write race between concurrent `storeAnalysis` calls: concurrency; sequential appends only.
- Chart.js, `updateScoreChart`, `innerHTML` templating, the history accordion and the `DOMContentLoaded` rendering: UI. Only the label, score and colour series are modelled.
- content.js is not part of this model. It is a second "analyze" listener that duplicates background.js's: with no stored configuration it replies `No site configuration found`, and for a site missing from its own table `Configuration not found for site`. For either configured site, the empty `cessionpme` entry included, its extraction path throws a ReferenceError because `getDtDdValue` is not defined there, and no reply is sent.
- Server.ParseReply: the score is a `nat`; `parseInt` loses precision on very long digit runs, and this is not modelled.
- Text.IsSpace: a fixed list of ECMAScript white-space code points; Unicode category Zs is not tracked beyond that list.
- Pipeline.Delivered: status 200 is the only success status the handler produces, so `ok` is modelled as "status is 200" rather than "status in 200-299".
- Page.Document: the `<dt>` groups are ordered group by group. A page where one group sits inside another, between two of its `<dt>`s, is not given the interleaved order `querySelectorAll` produces.
- Object keys inherited from `Object.prototype` (a host name or site id such as `constructor`) are treated as missing keys.

=== FILE: extraction.dfy ===
/** background.js: the per-site locator table, `extractData`, and the message
    listener that runs it in the page and answers the requester. */
module Extraction {
  import opened Wrappers
  import opened Text
  import opened Js
  import opened Page

  /** The listing fields `extractData` and `analyzePage` collect. */
  datatype Listing = Listing(
    title: JsValue,
    location: JsValue,
    price: JsValue,
    revenue: JsValue,
    employees: JsValue,
    description: JsValue)

  /** A site's locators: CSS selectors for the direct fields and `dt` labels for
      the label/value fields. A site entry may leave any of them out. */
  datatype Locators = Locators(
    titleSelector: Option<string>,
    locationSelector: Option<string>,
    priceLabel: Option<string>,
    revenueLabel: Option<string>,
    employeesLabel: Option<string>,
    descriptionSelector: Option<string>)

  /** The transentreprise locators; popup.js hard-codes the same six strings. */
  const ListingLocators := Locators(
    Some("header h1.block-title"),
    Some("header h1.block-title small"),
    Some("Prix"),
    Some("C.A."),
    Some("Effectif"),
    Some(".text-annonce p"))

  /** The `selectors` table: the cessionpme entry is an empty object. */
  const SiteSelectors: map<string, Locators> := map[
    "transentreprise" := ListingLocators,
    "cessionpme" := Locators(None, None, None, None, None, None)]

  /** `document.querySelector(selector)?.innerText`: the untrimmed text, or
      `undefined` (never `null`) when nothing matches. */
  function DirectField(doc: Document, selector: Option<string>): (v: JsValue)
    ensures !v.Null?
    ensures v.Str? <==> Coerce(selector) in doc.selected
    ensures v.Str? ==> v.s == doc.selected[Coerce(selector)]
  {
    match Select(doc, Coerce(selector))
    case Some(text) => Str(text)
    case None => Undefined
  }

  /** `getDtDdValue(label)`: trimmed text, or `null` (never `undefined`) when no
      `dt` containing the label is followed by a `DD`. */
  function LabelField(doc: Document, labelText: Option<string>): (v: JsValue)
    ensures !v.Undefined?
    ensures v.Str? ==> IsTrimmed(v.s)
    ensures v.Null? <==> forall q :: !Answers(doc.lists, Coerce(labelText), q)
    ensures forall p :: FirstAnswering(doc.lists, Coerce(labelText), p) ==>
              v == Str(Trim(doc.lists[p.block][p.index + 1].text))
  {
    match DtDdValue(doc.lists, Coerce(labelText))
    case Some(text) => Str(text)
    case None => Null
  }

  /** The record built from one page with one site's locators: each direct
      field is the untrimmed text its own selector picks (`undefined` on a
      miss), and each label field the trimmed `DD` after the first `dt` that
      answers its own label (`null` when none does). */
  function ExtractWith(doc: Document, loc: Locators): (r: Listing)
    ensures !r.title.Null?
    ensures r.title.Str? <==> Coerce(loc.titleSelector) in doc.selected
    ensures r.title.Str? ==> r.title.s == doc.selected[Coerce(loc.titleSelector)]
    ensures !r.location.Null?
    ensures r.location.Str? <==> Coerce(loc.locationSelector) in doc.selected
    ensures r.location.Str? ==> r.location.s == doc.selected[Coerce(loc.locationSelector)]
    ensures !r.price.Undefined?
    ensures r.price.Str? ==> IsTrimmed(r.price.s)
    ensures r.price.Null? <==> forall q :: !Answers(doc.lists, Coerce(loc.priceLabel), q)
    ensures forall p :: FirstAnswering(doc.lists, Coerce(loc.priceLabel), p) ==>
              r.price == Str(Trim(doc.lists[p.block][p.index + 1].text))
    ensures !r.revenue.Undefined?
    ensures r.revenue.Str? ==> IsTrimmed(r.revenue.s)
    ensures r.revenue.Null? <==> forall q :: !Answers(doc.lists, Coerce(loc.revenueLabel), q)
    ensures forall p :: FirstAnswering(doc.lists, Coerce(loc.revenueLabel), p) ==>
              r.revenue == Str(Trim(doc.lists[p.block][p.index + 1].text))
    ensures !r.employees.Undefined?
    ensures r.employees.Str? ==> IsTrimmed(r.employees.s)
    ensures r.employees.Null? <==> forall q :: !Answers(doc.lists, Coerce(loc.employeesLabel), q)
    ensures forall p :: FirstAnswering(doc.lists, Coerce(loc.employeesLabel), p) ==>
              r.employees == Str(Trim(doc.lists[p.block][p.index + 1].text))
    ensures !r.description.Null?
    ensures r.description.Str? <==> Coerce(loc.descriptionSelector) in doc.selected
    ensures r.description.Str? ==> r.description.s == doc.selected[Coerce(loc.descriptionSelector)]
  {
    Listing(
      DirectField(doc, loc.titleSelector),
      DirectField(doc, loc.locationSelector),
      LabelField(doc, loc.priceLabel),
      LabelField(doc, loc.revenueLabel),
      LabelField(doc, loc.employeesLabel),
      DirectField(doc, loc.descriptionSelector))
  }

  /** The stored `siteConfig` object; its `site` property may be missing. */
  datatype SiteConfig = SiteConfig(site: Option<string>)

  /** `extractData(siteConfig)`: `None` (JavaScript `null`) exactly when the
      site is not a key of the table; otherwise the record built with that
      site's locators. */
  function ExtractData(config: SiteConfig, doc: Document): (r: Option<Listing>)
    ensures r.None? <==> Coerce(config.site) !in SiteSelectors
    ensures r.Some? ==> r.value == ExtractWith(doc, SiteSelectors[Coerce(config.site)])
  {
    var key := Coerce(config.site);
    if key in SiteSelectors then Some(ExtractWith(doc, SiteSelectors[key])) else None
  }

  /** The cessionpme entry is an empty object, which JavaScript treats as
      present: a record is still produced, its direct fields looked up with the
      selector "undefined" and its label fields with the label "undefined". On
      a page with no such element and no `dt` containing that word, every
      direct field is `undefined` and every label field `null`. */
  lemma CessionpmeExtractsEmptyRecord(doc: Document)
    requires "undefined" !in doc.selected
    requires forall q :: !Answers(doc.lists, "undefined", q)
    ensures ExtractData(SiteConfig(Some("cessionpme")), doc)
            == Some(Listing(Undefined, Undefined, Null, Null, Null, Undefined))
  {
  }

  /** The failure the requester sees when no site configuration is stored. */
  const NoConfigError := "No site configuration found"

  /** What the injected script run reports: success, or `chrome.runtime.lastError`. */
  datatype Injection = Injected | InjectionFailed(message: string)

  /** The object passed to `sendResponse`. */
  datatype Reply = ErrorReply(error: string) | DataReply(data: Option<Listing>)

  /** The `onMessage` listener. Messages other than "analyze" get no reply.
      With no stored configuration, an "analyze" request gets the missing
      configuration error. With one, the script is injected into the sender's
      tab, `sender.tab.id`; a sender with no tab (an extension page) makes
      that read throw, so no reply is ever sent. Otherwise the request gets
      exactly one reply: the injection error or the extracted data. */
  function OnMessage(action: string, senderTab: Option<int>, stored: Option<SiteConfig>, injection: Injection, doc: Document): (r: Option<Reply>)
    ensures r.None? <==> action != "analyze" || (stored.Some? && senderTab.None?)
    ensures r.Some? && stored.None? ==> r.value == ErrorReply(NoConfigError)
    ensures r.Some? && stored.Some? && injection.InjectionFailed? ==> r.value == ErrorReply(injection.message)
    ensures r.Some? ==> (r.value.DataReply? <==> stored.Some? && injection.Injected?)
    ensures r.Some? && r.value.DataReply? ==> r.value.data == ExtractData(stored.value, doc)
  {
    if action != "analyze" then None
    else match stored
      case None => Some(ErrorReply(NoConfigError))
      case Some(config) =>
        if senderTab.None? then None
        else match injection
          case InjectionFailed(message) => Some(ErrorReply(message))
          case Injected => Some(DataReply(ExtractData(config, doc)))
  }
}

=== FILE: fixtures.dfy ===
/** Worked cases: a listing page as the extension meets it, and the round it
    goes through when the model answers in the requested format. */
module Fixtures {
  import opened Wrappers
  import opened Text
  import opened Numerals
  import opened Js
  import opened Page
  import opened Extraction
  import opened Markup
  import opened Popup
  import opened Route
  import opened Pipeline

  /** A `dt` that contains the label but is followed by another `dt` is passed
      over; the next `dt` that contains the label and is followed by a `DD`
      gives the value, trimmed. */
  lemma DtWithoutDdSkipped(lists: seq<seq<Element>>)
    requires lists == [[Element("DT", "Prix"), Element("DT", "Prix de cession"), Element("DD", " 150 000 € ")]]
    ensures DtDdValue(lists, "Prix") == Some("150 000 €")
  {
    assert !Answers(lists, "Prix", Pos(0, 0));
    assert Answers(lists, "Prix", Pos(0, 1)) by {
      assert lists[0][1].text[..4] == "Prix";
    }
    forall q: Pos | Before(q, Pos(0, 1)) ensures !Answers(lists, "Prix", q) {
      assert q == Pos(0, 0);
    }
    assert FirstAnswering(lists, "Prix", Pos(0, 1));
    PaddedPriceTrimmed();
  }

  /** The definition list of the worked listing page. */
  predicate IsListingTerms(terms: seq<Element>) {
    terms == [
      Element("DT", "Prix"), Element("DD", " 150 000 € "),
      Element("DT", "C.A."), Element("DD", "80 000 €"),
      Element("DT", "Effectif"), Element("DD", "2")]
  }

  /** The price of the worked page: its `DD` text, trimmed. */
  lemma ListingPrice(lists: seq<seq<Element>>)
    requires |lists| == 1 && IsListingTerms(lists[0])
    ensures DtDdValue(lists, "Prix") == Some("150 000 €")
  {
    assert Answers(lists, "Prix", Pos(0, 0)) by {
      assert lists[0][0].text[..4] == "Prix";
    }
    DtDdValueAtStart(lists, "Prix");
    PaddedPriceTrimmed();
  }

  /** `trim` drops the spaces around the price. */
  lemma PaddedPriceTrimmed()
    ensures Trim(" 150 000 € ") == "150 000 €"
  {
    TrimUnique(" ", "150 000 €", " ");
    assert " " + "150 000 €" + " " == " 150 000 € ";
  }

  /** The revenue of the worked page: the `dt` before it does not contain `C.A.`. */
  lemma ListingRevenue(lists: seq<seq<Element>>)
    requires |lists| == 1 && IsListingTerms(lists[0])
    ensures DtDdValue(lists, "C.A.") == Some("80 000 €")
  {
    assert Answers(lists, "C.A.", Pos(0, 2)) by {
      assert lists[0][2].text[..4] == "C.A.";
    }
    assert !Contains("Prix", "C.A.") by {
      assert "Prix"[0] != "C.A."[0];
    }
    forall q: Pos | Before(q, Pos(0, 2)) ensures !Answers(lists, "C.A.", q) {
    }
    assert FirstAnswering(lists, "C.A.", Pos(0, 2));
    TrimTrimmed("80 000 €");
  }

  /** The head count of the worked page. */
  lemma ListingEmployees(lists: seq<seq<Element>>)
    requires |lists| == 1 && IsListingTerms(lists[0])
    ensures DtDdValue(lists, "Effectif") == Some("2")
  {
    assert Answers(lists, "Effectif", Pos(0, 4)) by {
      assert lists[0][4].text[..8] == "Effectif";
    }
    assert !Contains("Prix", "Effectif");
    assert !Contains("C.A.", "Effectif");
    forall q: Pos | Before(q, Pos(0, 4)) ensures !Answers(lists, "Effectif", q) {
    }
    assert FirstAnswering(lists, "Effectif", Pos(0, 4));
    TrimTrimmed("2");
  }

  /** The worked listing page: a transentreprise page with a title, a
      location, a description and the three label fields. */
  predicate IsListingPage(doc: Document) {
    && doc.hostname == "www.transentreprise.com"
    && |doc.lists| == 1 && IsListingTerms(doc.lists[0])
    && doc.selected == map[
         "header h1.block-title" := "Boulangerie Centre-Ville",
         "header h1.block-title small" := "Lyon",
         ".text-annonce p" := "Commerce de proximité"]
  }

  /** What the popup extracts from the worked page. */
  const ListingRecord := PageRecord("transentreprise", Listing(
    Str("Boulangerie Centre-Ville"), Str("Lyon"), Str("150 000 €"),
    Str("80 000 €"), Str("2"), Str("Commerce de proximité")))

  /** The worked page's direct fields, read through the selector oracle. */
  lemma ListingDirectFields(doc: Document)
    requires IsListingPage(doc)
    ensures DirectField(doc, Some("header h1.block-title")) == Str("Boulangerie Centre-Ville")
    ensures DirectField(doc, Some("header h1.block-title small")) == Str("Lyon")
    ensures DirectField(doc, Some(".text-annonce p")) == Str("Commerce de proximité")
  {
  }

  /** The listing locators pick every field of the sample page. */
  lemma ListingExtracted(doc: Document)
    requires IsListingPage(doc)
    ensures ExtractWith(doc, ListingLocators) == ListingRecord.listing
  {
    var l := ExtractWith(doc, ListingLocators);
    assert l.title == Str("Boulangerie Centre-Ville") && l.location == Str("Lyon")
           && l.description == Str("Commerce de proximité") by {
      ListingDirectFields(doc);
    }
    assert l.price == Str("150 000 €") by {
      ListingPrice(doc.lists);
    }
    assert l.revenue == Str("80 000 €") by {
      ListingRevenue(doc.lists);
    }
    assert l.employees == Str("2") by {
      ListingEmployees(doc.lists);
    }
  }

  /** The worked page yields the record above, which passes the completeness gate. */
  lemma ListingPageAnalyzed(doc: Document)
    requires IsListingPage(doc)
    ensures AnalyzePage(doc) == Some(ListingRecord)
    ensures Complete(AnalyzePage(doc))
  {
    ListingExtracted(doc);
  }

  /** The explanation of the worked reply is shown with its line break as `<br>`. */
  lemma ExampleExplanationShown(body: string)
    requires body == "Explication\nBon potentiel."
    ensures SanitizeExplanation(body) == "Explication<br>Bon potentiel."
  {
    var a, b := "Explication", "Bon potentiel.";
    assert body == a + "\n" + b;
    assert a + "<br>" + b == "Explication<br>Bon potentiel.";
    PlainWords(a);
    PlainWords(b);
    TwoLinesShown(a, b, "\n");
  }

  /** The two lines of the worked explanation are plain. */
  lemma PlainWords(s: string)
    requires s == "Explication" || s == "Bon potentiel."
    ensures PlainLine(s)
  {
    assert forall i :: 0 <= i < |s| ==> s[i] != '*' && s[i] != '#' && !IsBreak(s[i]);
  }

  /** A line with no line break and no markdown marker. */
  predicate PlainLine(s: string) {
    NoBreaks(s) && '*' !in s && '#' !in s
  }

  /** Two plain lines separated by a line break are shown separated by `<br>`. */
  lemma TwoLinesShown(a: string, b: string, sep: string)
    requires PlainLine(a) && PlainLine(b)
    requires IsLineBreak(sep)
    ensures SanitizeExplanation(a + sep + b) == a + "<br>" + b
  {
    var lines := [a, b];
    assert lines[1..] == [b];
    SanitizeJoin(lines, sep);
  }

  /** The worked page, sent to a server that knows the site and whose model
      answers in the requested format, ends with one analysis appended to the
      history — the page's record, the score, the explanation as written — and
      the explanation shown with `<br>` for its line breaks (for the worked
      reply, see `ExampleExplanationShown`). */
  lemma ListingPageScored(doc: Document, knownSites: set<string>, complete: string -> Completion, errorText: string,
                          stored: Option<seq<Entry>>, n: nat, body: string)
    requires IsListingPage(doc)
    requires "transentreprise" in knownSites
    requires 0 < |body| && IsTrimmed(body) && '*' !in body && '#' !in body
    requires complete(Prompt(RequestOf(ListingRecord))) == Choices(["Note: " + Decimal(n) + "\n" + body])
    ensures var r := Click(AnalyzePage(doc), Backend(knownSites, complete, errorText), stored);
            && r.shown == Displayed(Number(n), SanitizeExplanation(body))
            && r.stored == Some(ReadAll(stored) + [Entry(ListingRecord, Number(n), body)])
  {
    ListingPageAnalyzed(doc);
    ScoredRecordStored(ListingRecord, knownSites, complete, errorText, stored, n, body);
  }
}

=== FILE: js.dfy ===
/** The few JavaScript value semantics the pipeline depends on: a field that is
    `undefined`, `null` or a string, its truthiness, and how a template literal
    prints it. */
module Js {
  import opened Wrappers

  datatype JsValue = Undefined | Null | Str(s: string)

  /** JavaScript truthiness of a field: only a non-empty string is truthy. */
  predicate Truthy(v: JsValue) {
    v.Str? && |v.s| > 0
  }

  /** `${v}` in a template literal (and `String(v)`). */
  function Interpolate(v: JsValue): (r: string)
    ensures v.Str? ==> r == v.s
  {
    match v
    case Undefined => "undefined"
    case Null => "null"
    case Str(s) => s
  }

  /** The string an optional configuration entry turns into when it is used as
      a selector or a search string: a missing entry is `undefined`. */
  function Coerce(o: Option<string>): (r: string)
    ensures o.Some? ==> r == o.value
    ensures o.None? ==> r == Interpolate(Undefined)
  {
    match o
    case Some(s) => s
    case None => "undefined"
  }
}

=== FILE: markup.dfy ===
/** The markdown clean-up applied to a scoring explanation: the server's
    `cleanExplanation` (server.js) and the extension's `sanitizeExplanation`
    (popup.js), each a chain of global `String.prototype.replace` calls. */
module Markup {
  import opened Text

  /** `a` can be obtained from `b` by deleting characters. */
  ghost predicate IsSubsequence(a: string, b: string)
    decreases |b|
  {
    if |a| == 0 then true
    else if |b| == 0 then false
    else (a[0] == b[0] && IsSubsequence(a[1..], b[1..])) || IsSubsequence(a, b[1..])
  }

  lemma {:induction false} SubsequenceTransitive(a: string, b: string, c: string)
    requires IsSubsequence(a, b) && IsSubsequence(b, c)
    ensures IsSubsequence(a, c)
    decreases |c|
  {
    if |a| > 0 && |c| > 0 {
      if IsSubsequence(b, c[1..]) {
        SubsequenceTransitive(a, b, c[1..]);
      } else {
        assert b[0] == c[0] && IsSubsequence(b[1..], c[1..]);
        if a[0] == b[0] && IsSubsequence(a[1..], b[1..]) {
          SubsequenceTransitive(a[1..], b[1..], c[1..]);
        } else {
          SubsequenceTransitive(a, b[1..], c[1..]);
        }
      }
    }
  }

  /** The characters of `s` that satisfy `p`, in order. */
  function Keep(s: string, p: char -> bool): string
  {
    if |s| == 0 then [] else (if p(s[0]) then [s[0]] else []) + Keep(s[1..], p)
  }

  /** Filtering by a weaker predicate first does not change a stronger filter. */
  lemma {:induction false} KeepKeep(s: string, p: char -> bool, q: char -> bool)
    requires forall c :: q(c) ==> p(c)
    ensures Keep(Keep(s, p), q) == Keep(s, q)
  {
    if |s| > 0 {
      KeepKeep(s[1..], p, q);
      assert q(s[0]) ==> p(s[0]);
      var head := if q(s[0]) then [s[0]] else [];
      assert Keep(s, q) == head + Keep(s[1..], q);
      if p(s[0]) {
        var k := Keep(s, p);
        assert k == [s[0]] + Keep(s[1..], p);
        assert k[0] == s[0] && k[1..] == Keep(s[1..], p);
        assert Keep(k, q) == head + Keep(Keep(s[1..], p), q);
      } else {
        assert Keep(s, p) == Keep(s[1..], p);
      }
    }
  }

  predicate NotStar(c: char) {
    c != '*'
  }

  predicate NotHashOrSpace(c: char) {
    c != '#' && !IsSpace(c)
  }

  /** Characters no clean-up step ever deletes. */
  predicate Plain(c: char) {
    c != '*' && c != '#' && !IsSpace(c)
  }

  predicate NoDoubleStar(s: string) {
    forall i :: 0 <= i < |s| - 1 ==> !(s[i] == '*' && s[i + 1] == '*')
  }

  /** `replace(/\*\*\/g, '')`: deletes the non-overlapping `**` pairs found left
      to right. No `**` is left behind, a leading non-star survives, and text
      without a star is returned unchanged. */
  function RemoveBold(s: string): (r: string)
    ensures NoDoubleStar(r)
    ensures '*' !in s ==> r == s
    ensures 0 < |s| && s[0] != '*' ==> 0 < |r| && r[0] == s[0]
    decreases |s|
  {
    if |s| == 0 then []
    else if StartsWith(s, "**") then
      assert s[0] == s[..2][0];
      RemoveBold(s[2..])
    else
      var rest := RemoveBold(s[1..]);
      assert |s| > 1 ==> s[..2] == [s[0], s[1]];
      [s[0]] + rest
  }

  /** `RemoveBold` deletes stars and nothing else: the result is a subsequence
      of the input with the same characters once stars are ignored. */
  lemma {:induction false} RemoveBoldDeletesOnlyStars(s: string)
    ensures IsSubsequence(RemoveBold(s), s)
    ensures Keep(RemoveBold(s), NotStar) == Keep(s, NotStar)
    decreases |s|
  {
    if |s| == 0 {
    } else if StartsWith(s, "**") {
      var r := RemoveBold(s[2..]);
      RemoveBoldDeletesOnlyStars(s[2..]);
      assert s[1..][1..] == s[2..];
      assert IsSubsequence(r, s[1..]);
      assert s[0] == '*' && s[1] == '*' by { assert s[..2][0] == s[0] && s[..2][1] == s[1]; }
      assert Keep(s, NotStar) == Keep(s[1..], NotStar);
    } else {
      var rest := RemoveBold(s[1..]);
      RemoveBoldDeletesOnlyStars(s[1..]);
      var r := [s[0]] + rest;
      assert r == RemoveBold(s);
      assert r[0] == s[0] && r[1..] == rest;
    }
  }

  /** No bold marker starts in `a` and runs on into what follows it, when
      `a` does not end in `*`. */
  lemma NoBoldAcross(a: string, t: string)
    requires 0 < |a| && a[|a| - 1] != '*' && !StartsWith(a, "**")
    ensures !StartsWith(a + t, "**")
  {
    var s := a + t;
    if |a| >= 2 {
      assert s[..2] == a[..2];
    } else if 2 <= |s| {
      assert s[..2][0] == a[0];
    }
  }

  /** A bold marker at the head of `a` is deleted whatever follows `a`. */
  lemma BoldSkipStep(a: string, t: string)
    requires StartsWith(a, "**")
    ensures RemoveBold(a + t) == RemoveBold(a[2..] + t)
  {
    var s := a + t;
    assert s[..2] == a[..2];
    assert s[2..] == a[2..] + t;
  }

  /** The head of `a` survives when no bold marker starts there. */
  lemma BoldKeepStep(a: string, t: string)
    requires 0 < |a| && !StartsWith(a + t, "**")
    ensures RemoveBold(a + t) == [a[0]] + RemoveBold(a[1..] + t)
  {
    var s := a + t;
    assert s[0] == a[0];
    assert s[1..] == a[1..] + t;
  }

  /** A bold marker at the head of `t`, not continuing a star at the end of
      `a`, is deleted, and `a` and the rest of `t` are cleaned on their own. */
  lemma {:induction false} BoldMarkerSplits(a: string, t: string)
    requires StartsWith(t, "**")
    requires |a| == 0 || a[|a| - 1] != '*'
    ensures RemoveBold(a + t) == RemoveBold(a) + RemoveBold(t[2..])
    decreases |a|
  {
    if |a| == 0 {
      assert a + t == t;
    } else if StartsWith(a, "**") {
      BoldSkipStep(a, t);
      BoldMarkerSplits(a[2..], t);
    } else {
      NoBoldAcross(a, t);
      BoldKeepStep(a, t);
      BoldMarkerSplits(a[1..], t);
      assert [a[0]] + (RemoveBold(a[1..]) + RemoveBold(t[2..])) == ([a[0]] + RemoveBold(a[1..])) + RemoveBold(t[2..]);
    }
  }

  /** A `**` pair that does not continue a star before it is deleted, and the
      text on either side is cleaned on its own: the pair is a bold marker
      the left-to-right scan removes. */
  lemma RemoveBoldSplits(a: string, b: string)
    requires |a| == 0 || a[|a| - 1] != '*'
    ensures RemoveBold(a + "**" + b) == RemoveBold(a) + RemoveBold(b)
  {
    var t := "**" + b;
    assert t[..2] == "**" && t[2..] == b;
    assert a + "**" + b == a + t;
    BoldMarkerSplits(a, t);
  }

  /** A character absent from the input is absent from the output. */
  lemma {:induction false} RemoveBoldAvoids(s: string, c: char)
    requires c !in s
    ensures c !in RemoveBold(s)
    decreases |s|
  {
    if |s| > 0 {
      if StartsWith(s, "**") {
        RemoveBoldAvoids(s[2..], c);
      } else {
        assert c !in s[1..];
        RemoveBoldAvoids(s[1..], c);
      }
    }
  }

  /** A markdown heading marker: three `#` and one white-space character. */
  predicate HeadingAt(s: string) {
    4 <= |s| && s[..3] == "###" && IsSpace(s[3])
  }

  /** `replace(/###\s/g, '')`: deletes each `###` followed by one white-space
      character, scanning left to right; text without a `#` is unchanged. */
  function RemoveHeadings(s: string): (r: string)
    ensures '#' !in s ==> r == s
    decreases |s|
  {
    if |s| == 0 then []
    else if HeadingAt(s) then
      assert s[0] == s[..3][0];
      RemoveHeadings(s[4..])
    else [s[0]] + RemoveHeadings(s[1..])
  }

  /** No heading marker starts in `a` and runs on into what follows it,
      when `a` does not end in `#`. */
  lemma NoHeadingAcross(a: string, t: string)
    requires 0 < |a| && a[|a| - 1] != '#' && !HeadingAt(a)
    ensures !HeadingAt(a + t)
  {
    var s := a + t;
    if |a| >= 4 {
      assert s[..3] == a[..3] && s[3] == a[3];
    } else if 4 <= |s| {
      assert s[..3][|a| - 1] == a[|a| - 1];
    }
  }

  /** The scan copies everything before the leftmost heading marker and
      resumes after it; with no marker at all, the text is copied whole. */
  lemma {:induction false} RemoveHeadingsLeftmost(s: string, i: nat)
    requires i <= |s|
    requires forall j :: 0 <= j < i ==> !HeadingAt(s[j..])
    requires i == |s| || HeadingAt(s[i..])
    ensures RemoveHeadings(s) == s[..i] + (if i == |s| then [] else RemoveHeadings(s[i + 4..]))
    decreases i
  {
    if i == 0 {
      assert s[0..] == s;
    } else {
      var t := s[1..];
      NoHeadingInTail(s, i);
      RemoveHeadingsLeftmost(t, i - 1);
      var rest := if i == |s| then [] else RemoveHeadings(s[i + 4..]);
      if i < |s| {
        assert t[i - 1 + 4..] == s[i + 4..];
      }
      LeftmostStep(s, i, rest);
    }
  }

  /** Dropping the first character shifts every position by one. */
  lemma NoHeadingInTail(s: string, i: nat)
    requires 0 < i <= |s|
    requires forall j :: 0 <= j < i ==> !HeadingAt(s[j..])
    requires i == |s| || HeadingAt(s[i..])
    ensures forall j :: 0 <= j < i - 1 ==> !HeadingAt(s[1..][j..])
    ensures i - 1 == |s[1..]| || HeadingAt(s[1..][i - 1..])
    ensures !HeadingAt(s)
  {
    assert s[0..] == s;
    forall j | 0 <= j < i - 1
      ensures !HeadingAt(s[1..][j..])
    {
      assert s[1..][j..] == s[j + 1..];
    }
    assert s[1..][i - 1..] == s[i..];
  }

  /** One step of the scan: a character that starts no marker is copied. */
  lemma LeftmostStep(s: string, i: nat, rest: string)
    requires 0 < i <= |s| && !HeadingAt(s)
    requires RemoveHeadings(s[1..]) == s[1..][..i - 1] + rest
    ensures RemoveHeadings(s) == s[..i] + rest
  {
    var h, p := [s[0]], s[1..][..i - 1];
    RemoveHeadingsKeep(s);
    assert h + p == s[..i];
    ConcatAssoc(h, p, rest);
  }

  /** The scan copies a head character that starts no marker. */
  lemma RemoveHeadingsKeep(s: string)
    requires 0 < |s| && !HeadingAt(s)
    ensures RemoveHeadings(s) == [s[0]] + RemoveHeadings(s[1..])
  {
  }

  lemma ConcatAssoc(a: string, b: string, c: string)
    ensures a + (b + c) == (a + b) + c
  {
  }

  /** Text with no heading marker anywhere is left unchanged: a `#` that does
      not start `###` plus white space survives. */
  lemma NoHeadingFixedPoint(s: string)
    requires forall j :: 0 <= j < |s| ==> !HeadingAt(s[j..])
    ensures RemoveHeadings(s) == s
  {
    RemoveHeadingsLeftmost(s, |s|);
    assert s[..|s|] == s;
  }

  /** A heading marker at the head of `a` is deleted whatever follows `a`. */
  lemma HeadingSkipStep(a: string, t: string)
    requires HeadingAt(a)
    ensures RemoveHeadings(a + t) == RemoveHeadings(a[4..] + t)
  {
    var s := a + t;
    assert s[..3] == a[..3] && s[3] == a[3];
    assert s[4..] == a[4..] + t;
  }

  /** The head of `a` survives when no heading marker starts there. */
  lemma HeadingKeepStep(a: string, t: string)
    requires 0 < |a| && !HeadingAt(a + t)
    ensures RemoveHeadings(a + t) == [a[0]] + RemoveHeadings(a[1..] + t)
  {
    var s := a + t;
    assert s[0] == a[0];
    assert s[1..] == a[1..] + t;
  }

  /** A heading marker at the head of `t`, not continuing a `#` at the end of
      `a`, is deleted, and `a` and the rest of `t` are cleaned on their own. */
  lemma {:induction false} HeadingMarkerSplits(a: string, t: string)
    requires HeadingAt(t)
    requires |a| == 0 || a[|a| - 1] != '#'
    ensures RemoveHeadings(a + t) == RemoveHeadings(a) + RemoveHeadings(t[4..])
    decreases |a|
  {
    if |a| == 0 {
      assert a + t == t;
    } else if HeadingAt(a) {
      HeadingSkipStep(a, t);
      HeadingMarkerSplits(a[4..], t);
    } else {
      NoHeadingAcross(a, t);
      HeadingKeepStep(a, t);
      HeadingMarkerSplits(a[1..], t);
      assert [a[0]] + (RemoveHeadings(a[1..]) + RemoveHeadings(t[4..])) == ([a[0]] + RemoveHeadings(a[1..])) + RemoveHeadings(t[4..]);
    }
  }

  /** A `###` followed by one white-space character, not continuing a `#`
      before it, is deleted, and the text on either side is cleaned on its own. */
  lemma RemoveHeadingsSplits(a: string, w: char, b: string)
    requires IsSpace(w)
    requires |a| == 0 || a[|a| - 1] != '#'
    ensures RemoveHeadings(a + "###" + [w] + b) == RemoveHeadings(a) + RemoveHeadings(b)
  {
    var t := "###" + [w] + b;
    assert t[..3] == "###" && t[3] == w && t[4..] == b;
    assert a + "###" + [w] + b == a + t;
    HeadingMarkerSplits(a, t);
  }

  /** Deleting a heading marker keeps subsequences of what follows it, and
      the marker holds no plain character. */
  lemma HeadingMarkerSkipped(s: string, r: string)
    requires HeadingAt(s)
    requires IsSubsequence(r, s[4..])
    ensures IsSubsequence(r, s)
    ensures Keep(s, NotHashOrSpace) == Keep(s[4..], NotHashOrSpace)
  {
    assert s[1..][1..][1..][1..] == s[4..];
    assert IsSubsequence(r, s[1..][1..][1..]);
    assert IsSubsequence(r, s[1..][1..]);
    assert IsSubsequence(r, s[1..]);
    assert s[0] == '#' && s[1] == '#' && s[2] == '#' by {
      assert s[..3][0] == s[0] && s[..3][1] == s[1] && s[..3][2] == s[2];
    }
    assert Keep(s[1..][1..][1..], NotHashOrSpace) == Keep(s[4..], NotHashOrSpace);
    assert Keep(s[1..][1..], NotHashOrSpace) == Keep(s[4..], NotHashOrSpace);
    assert Keep(s[1..], NotHashOrSpace) == Keep(s[4..], NotHashOrSpace);
  }

  /** `RemoveHeadings` deletes only `#` and white space: the result is a
      subsequence of the input with the same characters once those are ignored. */
  lemma {:induction false} RemoveHeadingsDeletesOnlyMarkers(s: string)
    ensures IsSubsequence(RemoveHeadings(s), s)
    ensures Keep(RemoveHeadings(s), NotHashOrSpace) == Keep(s, NotHashOrSpace)
    decreases |s|
  {
    if |s| == 0 {
    } else if HeadingAt(s) {
      RemoveHeadingsDeletesOnlyMarkers(s[4..]);
      HeadingMarkerSkipped(s, RemoveHeadings(s[4..]));
    } else {
      var rest := RemoveHeadings(s[1..]);
      RemoveHeadingsDeletesOnlyMarkers(s[1..]);
      var r := [s[0]] + rest;
      assert r == RemoveHeadings(s);
      assert r[0] == s[0] && r[1..] == rest;
    }
  }

  /** server.js `cleanExplanation`: bold markers, then heading markers. The
      result is a subsequence of the input that keeps every character that is
      not `*`, `#` or white space, and text with neither `*` nor `#` passes
      through unchanged. */
  function CleanExplanation(s: string): (r: string)
    ensures IsSubsequence(r, s)
    ensures Keep(r, Plain) == Keep(s, Plain)
    ensures '*' !in s && '#' !in s ==> r == s
  {
    var unbolded := RemoveBold(s);
    var r := RemoveHeadings(unbolded);
    RemoveBoldDeletesOnlyStars(s);
    RemoveHeadingsDeletesOnlyMarkers(unbolded);
    SubsequenceTransitive(r, unbolded, s);
    KeepKeep(r, NotHashOrSpace, Plain);
    KeepKeep(unbolded, NotHashOrSpace, Plain);
    KeepKeep(unbolded, NotStar, Plain);
    KeepKeep(s, NotStar, Plain);
    r
  }

  /** Text with no `**` and no heading marker comes out of the clean-up
      unchanged, whatever other stars and `#` it holds. */
  lemma CleanExplanationFixedPoint(s: string)
    requires NoDoubleStar(s)
    requires forall j :: 0 <= j < |s| ==> !HeadingAt(s[j..])
    ensures CleanExplanation(s) == s
  {
    RemoveBoldFixedPoint(s);
    NoHeadingFixedPoint(s);
  }

  /** A `#` that starts no heading marker is kept: "C#" is cleaned to itself. */
  lemma SharpSurvives(s: string)
    requires s == "C#"
    ensures CleanExplanation(s) == s
  {
    forall j | 0 <= j < |s|
      ensures !HeadingAt(s[j..])
    {
      assert |s[j..]| < 4;
    }
    CleanExplanationFixedPoint(s);
  }

  /** In text without `#`, each bold marker is removed and the text on
      either side is cleaned on its own. */
  lemma CleanExplanationDropsBold(a: string, b: string)
    requires '#' !in a && '#' !in b
    requires |a| == 0 || a[|a| - 1] != '*'
    ensures CleanExplanation(a + "**" + b) == CleanExplanation(a) + CleanExplanation(b)
  {
    RemoveBoldSplits(a, b);
    RemoveBoldAvoids(a, '#');
    RemoveBoldAvoids(b, '#');
    var u := RemoveBold(a) + RemoveBold(b);
    assert '#' !in u;
  }

  /** In text without `*`, each heading marker is removed and the text on
      either side is cleaned on its own. */
  lemma CleanExplanationDropsHeading(a: string, w: char, b: string)
    requires '*' !in a && '*' !in b
    requires IsSpace(w)
    requires |a| == 0 || a[|a| - 1] != '#'
    ensures CleanExplanation(a + "###" + [w] + b) == CleanExplanation(a) + CleanExplanation(b)
  {
    var s := a + "###" + [w] + b;
    assert '*' !in s by {
      assert '*' !in "###" + [w];
    }
    RemoveHeadingsSplits(a, w, b);
  }

  /** A markdown heading line loses its `### ` marker and nothing else. */
  lemma CleanHeadingLine(text: string)
    requires '*' !in text && '#' !in text
    ensures CleanExplanation("### " + text) == text
  {
    var s := "### " + text;
    assert '*' !in s by {
      assert forall i :: 0 <= i < 4 ==> s[i] != '*';
      assert forall i :: 4 <= i < |s| ==> s[i] == text[i - 4];
    }
    assert HeadingAt(s) by { assert s[..3] == "###"; }
    assert s[4..] == text;
  }

  predicate IsBreak(c: char) {
    c == '\r' || c == '\n'
  }

  predicate NoBreaks(s: string) {
    forall i :: 0 <= i < |s| ==> !IsBreak(s[i])
  }

  /** `replace(/(?:\r\n|\r|\n)/g, '<br>')`: every line break becomes `<br>`,
      a `\r\n` pair counting as one break. */
  function BreaksToHtml(s: string): (r: string)
    ensures '\r' !in r && '\n' !in r
    decreases |s|
  {
    if |s| == 0 then []
    else if StartsWith(s, "\r\n") then "<br>" + BreaksToHtml(s[2..])
    else if IsBreak(s[0]) then "<br>" + BreaksToHtml(s[1..])
    else [s[0]] + BreaksToHtml(s[1..])
  }

  /** Joining two texts without line breaks gives one without. */
  lemma NoBreaksConcat(a: string, b: string)
    requires NoBreaks(a) && NoBreaks(b)
    ensures NoBreaks(a + b)
  {
    forall i | 0 <= i < |a + b| ensures !IsBreak((a + b)[i]) {
      if i < |a| {
        assert (a + b)[i] == a[i];
      } else {
        assert (a + b)[i] == b[i - |a|];
      }
    }
  }

  /** No line break survives the replacement. */
  lemma {:induction false} BreaksToHtmlNoBreaks(s: string)
    ensures NoBreaks(BreaksToHtml(s))
    decreases |s|
  {
    if |s| > 0 {
      assert NoBreaks("<br>");
      if StartsWith(s, "\r\n") {
        BreaksToHtmlNoBreaks(s[2..]);
        NoBreaksConcat("<br>", BreaksToHtml(s[2..]));
      } else if IsBreak(s[0]) {
        BreaksToHtmlNoBreaks(s[1..]);
        NoBreaksConcat("<br>", BreaksToHtml(s[1..]));
      } else {
        BreaksToHtmlNoBreaks(s[1..]);
        NoBreaksConcat([s[0]], BreaksToHtml(s[1..]));
      }
    }
  }

  /** A first character that is not a line break is copied. */
  lemma PlainHead(s: string)
    requires |s| > 0 && !IsBreak(s[0])
    ensures BreaksToHtml(s) == [s[0]] + BreaksToHtml(s[1..])
  {
    assert |s| > 1 ==> s[..2][0] == s[0];
  }

  /** Text without line breaks is unchanged. */
  lemma BreaksToHtmlPlain(s: string)
    requires NoBreaks(s)
    ensures BreaksToHtml(s) == s
  {
    BreaksToHtmlPrefix(s, []);
    assert s + [] == s;
  }

  /** Text without line breaks is copied through, whatever follows it. */
  lemma {:induction false} BreaksToHtmlPrefix(a: string, b: string)
    requires NoBreaks(a)
    ensures BreaksToHtml(a + b) == a + BreaksToHtml(b)
    decreases |a|
  {
    if |a| == 0 {
      assert a + b == b;
    } else {
      var s := a + b;
      assert s[0] == a[0] && s[1..] == a[1..] + b;
      PlainHead(s);
      BreaksToHtmlPrefix(a[1..], b);
      assert [a[0]] + (a[1..] + BreaksToHtml(b)) == a + BreaksToHtml(b);
    }
  }

  /** The three line-break spellings the pattern recognises. */
  predicate IsLineBreak(sep: string) {
    sep == "\r\n" || sep == "\r" || sep == "\n"
  }

  /** The lines joined with `sep` between consecutive ones. */
  function Join(lines: seq<string>, sep: string): string
  {
    if |lines| == 0 then []
    else if |lines| == 1 then lines[0]
    else lines[0] + sep + Join(lines[1..], sep)
  }

  /** A joined text whose separators carry no `\n` does not start with one. */
  lemma {:induction false} JoinStart(lines: seq<string>, sep: string)
    requires forall i :: 0 <= i < |lines| ==> NoBreaks(lines[i])
    requires sep == "\r"
    ensures |Join(lines, sep)| == 0 || Join(lines, sep)[0] != '\n'
  {
    if |lines| > 1 {
      var j := Join(lines, sep);
      if |lines[0]| > 0 {
        assert j[0] == lines[0][0];
      } else {
        assert j[0] == sep[0];
      }
    }
  }

  /** A line break followed by text that does not continue it into a
      `\r\n` pair becomes exactly one `<br>`. */
  lemma BreakThenText(sep: string, rest: string)
    requires IsLineBreak(sep)
    requires sep == "\r" ==> |rest| == 0 || rest[0] != '\n'
    ensures BreaksToHtml(sep + rest) == "<br>" + BreaksToHtml(rest)
  {
    var s := sep + rest;
    assert s[|sep|..] == rest;
    if sep == "\r\n" {
      assert s[..2] == "\r\n";
    } else if sep == "\n" {
      assert s[0] == '\n';
    } else {
      assert s[0] == '\r';
      assert |s| > 1 ==> s[1] == rest[0];
      assert !StartsWith(s, "\r\n");
    }
  }

  /** Lines separated by any one kind of line break come out separated by
      `<br>`: one `<br>` per break, `\r\n` included. */
  lemma {:induction false} BreaksToHtmlJoin(lines: seq<string>, sep: string)
    requires forall i :: 0 <= i < |lines| ==> NoBreaks(lines[i])
    requires IsLineBreak(sep)
    ensures BreaksToHtml(Join(lines, sep)) == Join(lines, "<br>")
  {
    if |lines| == 1 {
      BreaksToHtmlPlain(lines[0]);
    } else if |lines| > 1 {
      var tail := lines[1..];
      var rest := Join(tail, sep);
      var html := Join(tail, "<br>");
      assert forall i :: 0 <= i < |tail| ==> NoBreaks(tail[i]) by {
        forall i | 0 <= i < |tail| ensures NoBreaks(tail[i]) {
          assert tail[i] == lines[i + 1];
        }
      }
      BreaksToHtmlJoin(tail, sep);
      if sep == "\r" {
        JoinStart(tail, sep);
      }
      BreakThenText(sep, rest);
      JoinStep(lines, sep);
      BreaksToHtmlPrefix(lines[0], sep + rest);
      JoinStep(lines, "<br>");
    }
  }

  /** Unfolding one line of a join. */
  lemma JoinStep(lines: seq<string>, sep: string)
    requires |lines| > 1
    ensures Join(lines, sep) == lines[0] + (sep + Join(lines[1..], sep))
  {
    var rest := Join(lines[1..], sep);
    assert lines[0] + sep + rest == lines[0] + (sep + rest);
  }

  /** popup.js `sanitizeExplanation`: the server's clean-up followed by line
      breaks turned into `<br>`. The result holds no line break, and text with
      no `*`, `#`, `\r` or `\n` is unchanged. */
  function SanitizeExplanation(s: string): (r: string)
    ensures NoBreaks(r)
    ensures '*' !in s && '#' !in s && NoBreaks(s) ==> r == s
  {
    var cleaned := CleanExplanation(s);
    BreaksToHtmlNoBreaks(cleaned);
    assert '*' !in s && '#' !in s && NoBreaks(s) ==> BreaksToHtml(cleaned) == s by {
      if '*' !in s && '#' !in s && NoBreaks(s) {
        BreaksToHtmlPlain(s);
      }
    }
    BreaksToHtml(cleaned)
  }

  /** A character that occurs in no line and not in the separator does not
      occur in the joined text. */
  lemma {:induction false} JoinAvoids(lines: seq<string>, sep: string, c: char)
    requires forall i :: 0 <= i < |lines| ==> c !in lines[i]
    requires c !in sep
    ensures c !in Join(lines, sep)
  {
    if |lines| > 1 {
      JoinAvoids(lines[1..], sep, c);
    }
  }

  /** Plain lines separated by line breaks are displayed as those lines
      separated by `<br>`. */
  lemma SanitizeJoin(lines: seq<string>, sep: string)
    requires forall i :: 0 <= i < |lines| ==> NoBreaks(lines[i]) && '*' !in lines[i] && '#' !in lines[i]
    requires IsLineBreak(sep)
    ensures SanitizeExplanation(Join(lines, sep)) == Join(lines, "<br>")
  {
    JoinAvoids(lines, sep, '*');
    JoinAvoids(lines, sep, '#');
    BreaksToHtmlJoin(lines, sep);
  }

  /** Text with no `**` left is a fixed point of `RemoveBold`; with its
      postcondition this makes `RemoveBold` idempotent on its own. */
  lemma {:induction false} RemoveBoldFixedPoint(s: string)
    requires NoDoubleStar(s)
    ensures RemoveBold(s) == s
    decreases |s|
  {
    if |s| > 0 {
      assert |s| > 1 ==> s[..2] == [s[0], s[1]];
      assert !StartsWith(s, "**");
      RemoveBoldFixedPoint(s[1..]);
    }
  }

  /** Sanitizing is not idempotent: deleting a heading marker can join two
      stars into a fresh bold marker, which only a second pass removes. */
  lemma SanitizeNotIdempotent()
    ensures SanitizeExplanation("*### *") == "**"
    ensures SanitizeExplanation(SanitizeExplanation("*### *")) == ""
  {
    StarsAroundHeading("*### *");
    LoneBoldMarker("**");
  }

  /** The first pass: no `**` to remove, then the heading marker goes. */
  lemma StarsAroundHeading(s: string)
    requires s == "*### *"
    ensures SanitizeExplanation(s) == "**"
  {
    StarsAroundHeadingCleaned(s);
    PlainStars("**");
  }

  lemma StarsAroundHeadingCleaned(s: string)
    requires s == "*### *"
    ensures CleanExplanation(s) == "**"
  {
    RemoveBoldFixedPoint(s);
    assert s[..3] != "###" by { assert s[..3][0] == '*'; }
    assert s[1..] == "### *";
    assert RemoveHeadings(s) == "*" + RemoveHeadings("### *");
    assert HeadingAt("### *") by { assert "### *"[..3] == "###"; }
    assert "### *"[4..] == "*";
    assert RemoveHeadings("### *") == RemoveHeadings("*");
  }

  lemma PlainStars(s: string)
    requires s == "**"
    ensures BreaksToHtml(s) == s
  {
    assert NoBreaks(s);
    BreaksToHtmlPlain(s);
  }

  /** The second pass: the joined stars are a bold marker. */
  lemma LoneBoldMarker(s: string)
    requires s == "**"
    ensures SanitizeExplanation(s) == ""
  {
    assert s[..2] == "**";
    assert RemoveBold(s) == RemoveBold("");
  }

  /** Deleting a heading marker can also assemble a new one out of the
      surrounding `#`s. */
  lemma HeadingRemovalNotIdempotent()
    ensures RemoveHeadings("#### ## ") == "### "
    ensures RemoveHeadings(RemoveHeadings("#### ## ")) == ""
  {
    FourHashesAssembleHeading("#### ## ");
    LoneHeadingMarker("### ");
  }

  /** The first pass keeps the first `#`, deletes the `### ` after it and
      keeps `## `, leaving `### `. */
  lemma FourHashesAssembleHeading(s: string)
    requires s == "#### ## "
    ensures RemoveHeadings(s) == "### "
  {
    assert RemoveHeadings("## ") == "## " by {
      assert "## "[1..] == "# " && "# "[1..] == " ";
      assert RemoveHeadings("# ") == "#" + RemoveHeadings(" ");
    }
    assert RemoveHeadings("### ## ") == "## " by {
      assert HeadingAt("### ## ") by { assert "### ## "[..3] == "###"; }
      assert "### ## "[4..] == "## ";
    }
    assert s[..3] == "###" && !IsSpace(s[3]);
    assert s[1..] == "### ## ";
  }

  /** The second pass deletes that marker. */
  lemma LoneHeadingMarker(s: string)
    requires s == "### "
    ensures RemoveHeadings(s) == ""
  {
    assert HeadingAt(s) by { assert s[..3] == "###"; }
    assert s[4..] == "";
  }
}

=== FILE: numerals.dfy ===
/** Base-10 numerals: the value `parseInt(digits, 10)` reads from a run of ASCII
    digits, and the string a JavaScript template literal prints for a natural number. */
module Numerals {
  import opened Text

  predicate AllDigits(s: string) {
    forall i :: 0 <= i < |s| ==> IsDigit(s[i])
  }

  function DigitValue(c: char): (d: nat)
    requires IsDigit(c)
    ensures d < 10
  {
    c as int - '0' as int
  }

  function DigitChar(d: nat): (c: char)
    requires d < 10
    ensures IsDigit(c) && DigitValue(c) == d
  {
    ('0' as int + d) as char
  }

  /** The value of a run of decimal digits, most significant first; leading
      zeros are allowed, and there is no upper bound. */
  function DigitsValue(ds: string): (v: nat)
    requires AllDigits(ds)
    ensures v < Pow10(|ds|)
  {
    if |ds| == 0 then 0
    else
      var high := DigitsValue(ds[..|ds| - 1]);
      assert high * 10 <= (Pow10(|ds| - 1) - 1) * 10;
      high * 10 + DigitValue(ds[|ds| - 1])
  }

  function Pow10(n: nat): (p: nat)
    ensures 0 < p
  {
    if n == 0 then 1 else 10 * Pow10(n - 1)
  }

  /** A leading zero does not change the value: `parseInt("072", 10)` is 72. */
  lemma {:induction false} LeadingZeroIgnored(ds: string)
    requires AllDigits(ds)
    ensures AllDigits("0" + ds) && DigitsValue("0" + ds) == DigitsValue(ds)
    decreases |ds|
  {
    var z := "0" + ds;
    assert forall i :: 0 < i < |z| ==> z[i] == ds[i - 1];
    if |ds| > 0 {
      assert z[..|z| - 1] == "0" + ds[..|ds| - 1];
      LeadingZeroIgnored(ds[..|ds| - 1]);
    }
  }

  /** `Note: 072` scores 72. */
  lemma ZeroPaddedScore(ds: string)
    requires ds == "072"
    ensures AllDigits(ds) && DigitsValue(ds) == 72
  {
    var t := "72";
    assert ds == "0" + t;
    LeadingZeroIgnored(t);
    assert t[..1] == "7";
  }

  /** The decimal numeral of `n`, as printed by `${n}`: at least one digit, and
      no leading zero unless the number is zero itself. */
  function Decimal(n: nat): (r: string)
    ensures 0 < |r| && AllDigits(r)
    ensures r[0] == '0' <==> n == 0
  {
    if n < 10 then [DigitChar(n)] else Decimal(n / 10) + [DigitChar(n % 10)]
  }

  /** Reading back a printed number gives the number. */
  lemma {:induction false} DecimalRoundTrip(n: nat)
    ensures DigitsValue(Decimal(n)) == n
  {
    if n >= 10 {
      var r := Decimal(n);
      assert r[..|r| - 1] == Decimal(n / 10);
      DecimalRoundTrip(n / 10);
    }
  }

  /** Distinct numbers print as distinct numerals. */
  lemma DecimalInjective(m: nat, n: nat)
    requires Decimal(m) == Decimal(n)
    ensures m == n
  {
    DecimalRoundTrip(m);
    DecimalRoundTrip(n);
  }
}

=== FILE: page.dfy ===
/** The parts of a listing page that extraction reads: the page's host name,
    the sibling groups that hold its `<dt>` elements, and what `querySelector(...).innerText` gives
    for a selector. The selector engine itself is an oracle: a map from a
    selector to the rendered text of the first element it matches. */
module Page {
  import opened Wrappers
  import opened Text

  /** One element of a group of siblings: its upper-case tag name and rendered text. */
  datatype Element = Element(tag: string, text: string)

  datatype Document = Document(
    hostname: string,
    /** the sibling groups that hold the `<dt>`s that `querySelectorAll('dl dt')`
        matches (the children of a `<dl>`, or of a `<div>` inside one), in
        document order, each as its elements */
    lists: seq<seq<Element>>,
    /** selector -> `innerText` of its first match; absent when nothing matches */
    selected: map<string, string>)

  /** `document.querySelector(selector)?.innerText`, untrimmed. */
  function Select(doc: Document, selector: string): (r: Option<string>)
    ensures r.Some? <==> selector in doc.selected
    ensures r.Some? ==> r.value == doc.selected[selector]
  {
    if selector in doc.selected then Some(doc.selected[selector]) else None
  }

  /** The position of the `index`-th element of the `block`-th group. */
  datatype Pos = Pos(block: nat, index: nat)

  /** Document order of `dt` elements. */
  predicate Before(p: Pos, q: Pos) {
    p.block < q.block || (p.block == q.block && p.index < q.index)
  }

  /** The `dt` at `p` answers `label`: its text contains the label and its next
      sibling element is a `DD`. A `dt` that is the last child, or is followed
      by anything else, does not answer. */
  predicate Answers(lists: seq<seq<Element>>, labelText: string, p: Pos) {
    && p.block < |lists|
    && p.index + 1 < |lists[p.block]|
    && lists[p.block][p.index].tag == "DT"
    && Contains(lists[p.block][p.index].text, labelText)
    && lists[p.block][p.index + 1].tag == "DD"
  }

  /** The first answering `dt` at or after `from`, walking the lists in document order. */
  function FirstAnswer(lists: seq<seq<Element>>, labelText: string, from: Pos): (r: Option<Pos>)
    requires from.block <= |lists|
    ensures r.Some? ==> Answers(lists, labelText, r.value) && !Before(r.value, from)
    ensures r.Some? ==> forall q :: !Before(q, from) && Before(q, r.value) ==> !Answers(lists, labelText, q)
    ensures r.None? ==> forall q :: !Before(q, from) ==> !Answers(lists, labelText, q)
    decreases |lists| - from.block, if from.block < |lists| then |lists[from.block]| - from.index else 0
  {
    if from.block == |lists| then None
    else if from.index >= |lists[from.block]| then FirstAnswer(lists, labelText, Pos(from.block + 1, 0))
    else if Answers(lists, labelText, from) then Some(from)
    else FirstAnswer(lists, labelText, Pos(from.block, from.index + 1))
  }

  /** The `dt` at `p` answers `labelText` and no earlier `dt` does. */
  ghost predicate FirstAnswering(lists: seq<seq<Element>>, labelText: string, p: Pos) {
    Answers(lists, labelText, p) && forall q :: Before(q, p) ==> !Answers(lists, labelText, q)
  }

  /** `getDtDdValue(label)` (popup.js and background.js): the trimmed text of
      the `DD` right after the first `dt`, in document order, whose text
      contains `label`; `None` (JavaScript `null`) when no `dt` answers. */
  function DtDdValue(lists: seq<seq<Element>>, labelText: string): (r: Option<string>)
    ensures r.None? <==> forall q :: !Answers(lists, labelText, q)
    ensures forall p :: FirstAnswering(lists, labelText, p) ==> r == Some(Trim(lists[p.block][p.index + 1].text))
  {
    match FirstAnswer(lists, labelText, Pos(0, 0))
    case Some(p) =>
      FirstAnsweringUnique(lists, labelText, p);
      Some(Trim(lists[p.block][p.index + 1].text))
    case None => None
  }

  /** Document order is total, so at most one `dt` answers first. */
  lemma FirstAnsweringUnique(lists: seq<seq<Element>>, labelText: string, p: Pos)
    requires FirstAnswering(lists, labelText, p)
    ensures forall q :: FirstAnswering(lists, labelText, q) ==> q == p
  {
    forall q | FirstAnswering(lists, labelText, q) ensures q == p {
      assert !Before(q, p) && !Before(p, q);
    }
  }

  /** A page whose first `dl` opens with an answering `dt`: its `DD` gives the value. */
  lemma DtDdValueAtStart(lists: seq<seq<Element>>, labelText: string)
    requires Answers(lists, labelText, Pos(0, 0))
    ensures DtDdValue(lists, labelText) == Some(Trim(lists[0][1].text))
  {
    assert FirstAnswering(lists, labelText, Pos(0, 0));
  }

  /** Only the first answering `dt` matters: once one is found, what follows it
      in the page, including later `dl`s, cannot change the value. */
  lemma DtDdValueFirstWins(lists: seq<seq<Element>>, more: seq<seq<Element>>, labelText: string)
    requires DtDdValue(lists, labelText).Some?
    ensures DtDdValue(lists + more, labelText) == DtDdValue(lists, labelText)
  {
    var all := lists + more;
    var p := FirstAnswer(lists, labelText, Pos(0, 0)).value;
    assert FirstAnswering(lists, labelText, p);
    assert all[p.block] == lists[p.block];
    forall q: Pos | Before(q, p) ensures !Answers(all, labelText, q) {
      assert all[q.block] == lists[q.block];
    }
    assert FirstAnswering(all, labelText, p);
  }

  /** `dl`s in which no `dt` answers are passed over: the value comes from the
      rest of the page. */
  lemma DtDdValueSkipsUnanswered(lists: seq<seq<Element>>, more: seq<seq<Element>>, labelText: string)
    requires DtDdValue(lists, labelText).None?
    ensures DtDdValue(lists + more, labelText) == DtDdValue(more, labelText)
  {
    var all := lists + more;
    var n := |lists|;
    forall q: Pos | q.block < n ensures !Answers(all, labelText, q) {
      assert all[q.block] == lists[q.block];
    }
    forall q: Pos | n <= q.block < |all| ensures Answers(all, labelText, q) == Answers(more, labelText, Pos(q.block - n, q.index)) {
      assert all[q.block] == more[q.block - n];
    }
    match FirstAnswer(more, labelText, Pos(0, 0))
    case None =>
      forall q: Pos ensures !Answers(all, labelText, q) {
        if n <= q.block < |all| {
          assert !Answers(more, labelText, Pos(q.block - n, q.index));
        }
      }
    case Some(p) =>
      var pa := Pos(p.block + n, p.index);
      assert all[pa.block] == more[p.block];
      assert Answers(all, labelText, pa);
      forall q: Pos | Before(q, pa) ensures !Answers(all, labelText, q) {
        if n <= q.block {
          assert Before(Pos(q.block - n, q.index), p);
        }
      }
      assert FirstAnswering(all, labelText, pa);
      assert FirstAnswering(more, labelText, p);
  }
}

=== FILE: pipeline.dfy ===
/** The popup and the scoring server together: the record the popup posts is
    the request the server reads, and the server's response is the answer the
    popup's gates judge. */
module Pipeline {
  import opened Wrappers
  import opened Text
  import opened Numerals
  import opened Markup
  import opened Js
  import opened Route
  import opened Popup

  /** `JSON.stringify(data)` read back by the handler's destructuring: strings
      and `null` arrive as they were sent, an `undefined` field is dropped and
      reads as `undefined`. */
  function RequestOf(record: PageRecord): (req: ScoreRequest)
    ensures req.site == Str(record.site)
    ensures FieldValues(req) == [
      Interpolate(record.listing.description), Interpolate(record.listing.title),
      Interpolate(record.listing.location), Interpolate(record.listing.price),
      Interpolate(record.listing.revenue), Interpolate(record.listing.employees)]
  {
    var l := record.listing;
    ScoreRequest(Str(record.site), l.title, l.location, l.price, l.revenue, l.employees, l.description)
  }

  /** The standard reason phrase of the status codes the handler uses. */
  function StatusText(status: nat): string {
    if status == 200 then "OK"
    else if status == 400 then "Bad Request"
    else "Internal Server Error"
  }

  /** What the popup's `fetch` sees of a handler outcome: `ok` exactly for
      status 200, with the body's JSON; otherwise the status text and
      `errorText`, the serialised error body (JSON serialisation is not part
      of this model). */
  function Delivered(o: Outcome, errorText: string): (a: ServerAnswer)
    ensures a.Ok? <==> o.status == 200
    ensures a.Ok? && o.body.ScoreBody? ==> a.json == ReplyJson(Number(o.body.score), Str(o.body.explanation))
  {
    if o.status != 200 then NotOk(StatusText(o.status), errorText)
    else match o.body
      case ScoreBody(score, explanation) => Ok(ReplyJson(Number(score), Str(explanation)))
      case ErrorBody(error, details) => Ok(ReplyJson(Absent, Str(error)))
  }

  /** The scoring server as the popup's `send`. */
  function Backend(knownSites: set<string>, complete: string -> Completion, errorText: string): PageRecord -> ServerAnswer {
    (record: PageRecord) => Delivered(Analyze(RequestOf(record), knownSites, complete), errorText)
  }

  /** The server's side of a formatted reply: the popup receives an `ok`
      answer with the score and the cleaned explanation. */
  lemma BackendScores(record: PageRecord, knownSites: set<string>, complete: string -> Completion, errorText: string,
                      n: nat, body: string)
    requires record.site in knownSites
    requires IsTrimmed(body)
    requires complete(Prompt(RequestOf(record))) == Choices(["Note: " + Decimal(n) + "\n" + body])
    ensures Backend(knownSites, complete, errorText)(record) == Ok(ReplyJson(Number(n), Str(CleanExplanation(body))))
  {
    var req := RequestOf(record);
    FormattedReplyScored(req, knownSites, complete, n, body, []);
  }

  /** A complete record whose model reply is in the requested format, with an
      explanation free of markdown markers, ends in exactly one new stored
      analysis: the record, the score the model gave and its explanation as
      written; the popup shows that explanation with its line breaks as `<br>`. */
  lemma ScoredRecordStored(record: PageRecord, knownSites: set<string>, complete: string -> Completion, errorText: string,
                           stored: Option<seq<Entry>>, n: nat, body: string)
    requires Complete(Some(record))
    requires record.site in knownSites
    requires 0 < |body| && IsTrimmed(body) && '*' !in body && '#' !in body
    requires complete(Prompt(RequestOf(record))) == Choices(["Note: " + Decimal(n) + "\n" + body])
    ensures var r := Click(Some(record), Backend(knownSites, complete, errorText), stored);
            && r.shown == Displayed(Number(n), SanitizeExplanation(body))
            && r.stored == Some(ReadAll(stored) + [Entry(record, Number(n), body)])
  {
    var send := Backend(knownSites, complete, errorText);
    BackendScores(record, knownSites, complete, errorText, n, body);
    assert CleanExplanation(body) == body;
    assert send(record) == Ok(ReplyJson(Number(n), Str(body)));
    AcceptedAnswerStored(record, send, stored, Number(n), body);
  }

  /** A site the server has no configuration for is refused with 400, the
      model is never asked, the popup shows an error and nothing is stored. */
  lemma UnconfiguredSiteRefused(record: PageRecord, knownSites: set<string>, complete: string -> Completion, errorText: string,
                                stored: Option<seq<Entry>>)
    requires Complete(Some(record))
    requires record.site !in knownSites
    ensures Analyze(RequestOf(record), knownSites, complete).asked.None?
    ensures var r := Click(Some(record), Backend(knownSites, complete, errorText), stored);
            && r.shown == Failed(AnalysisErrorPrefix + NotOkPrefix + "Bad Request - " + errorText)
            && r.stored == stored
  {
    var o := Analyze(RequestOf(record), knownSites, complete);
    assert o.status == 400;
    assert Backend(knownSites, complete, errorText)(record) == NotOk("Bad Request", errorText);
    assert NotOkPrefix + "Bad Request" + " - " + errorText == NotOkPrefix + "Bad Request - " + errorText;
  }

  /** A model reply that is only a score line reaches the popup as an `ok`
      answer with the score and an empty explanation. */
  lemma BackendScoresBare(record: PageRecord, knownSites: set<string>, complete: string -> Completion,
                          errorText: string, n: nat)
    requires record.site in knownSites
    requires complete(Prompt(RequestOf(record))) == Choices(["Note: " + Decimal(n) + "\n"])
    ensures Analyze(RequestOf(record), knownSites, complete).status == 200
    ensures Backend(knownSites, complete, errorText)(record) == Ok(ReplyJson(Number(n), Str([])))
  {
    assert "Note: " + Decimal(n) + "\n" + [] == "Note: " + Decimal(n) + "\n";
    BackendScores(record, knownSites, complete, errorText, n, []);
    assert CleanExplanation([]) == [];
  }

  /** That answer is turned down by the popup's gate, because its explanation
      is empty: an error is shown and nothing is stored. */
  lemma ScoreWithoutExplanationRejected(record: PageRecord, knownSites: set<string>, complete: string -> Completion,
                                        errorText: string, stored: Option<seq<Entry>>, n: nat)
    requires Complete(Some(record))
    requires record.site in knownSites
    requires complete(Prompt(RequestOf(record))) == Choices(["Note: " + Decimal(n) + "\n"])
    ensures var r := Click(Some(record), Backend(knownSites, complete, errorText), stored);
            && r.shown == Failed(AnalysisErrorPrefix + InvalidReply)
            && r.stored == stored
  {
    BackendScoresBare(record, knownSites, complete, errorText, n);
    var send := Backend(knownSites, complete, errorText);
    RejectedAnswer(record, send, stored);
  }

  /** An `ok` answer with an empty explanation shows the invalid-reply error
      and stores nothing. */
  lemma RejectedAnswer(record: PageRecord, send: PageRecord -> ServerAnswer, stored: Option<seq<Entry>>)
    requires Complete(Some(record))
    requires send(record).Ok? && send(record).json.explanation == Str([])
    ensures var r := Click(Some(record), send, stored);
            && r.shown == Failed(AnalysisErrorPrefix + InvalidReply)
            && r.stored == stored
  {
  }
}

=== FILE: popup.dfy ===
/** popup.js: the page analysis run in the active tab, the completeness gate
    before scoring, the acceptance gate on the server's answer, the stored
    history of analyses and the chart series derived from it. */
module Popup {
  import opened Wrappers
  import opened Text
  import opened Numerals
  import opened Markup
  import opened Js
  import opened Page
  import opened Extraction

  /** `siteConfigs` of `analyzePage`: supported host name -> site id. */
  const SiteIds: map<string, string> := map[
    "www.transentreprise.com" := "transentreprise",
    "www.cessionpme.com" := "cessionpme"]

  /** The record `analyzePage` returns: the site id and the listing fields. */
  datatype PageRecord = PageRecord(site: string, listing: Listing)

  /** `analyzePage()`: `None` (JavaScript `null`) on an unsupported host;
      otherwise the site id and the fields read with the fixed transentreprise
      locators, whichever of the two sites the page is on. */
  function AnalyzePage(doc: Document): (r: Option<PageRecord>)
    ensures r.None? <==> doc.hostname !in SiteIds
    ensures r.Some? ==> r.value.site == SiteIds[doc.hostname]
    ensures r.Some? ==> r.value.listing == ExtractWith(doc, ListingLocators)
  {
    if doc.hostname in SiteIds && Truthy(Str(SiteIds[doc.hostname])) then
      Some(PageRecord(SiteIds[doc.hostname], ExtractWith(doc, ListingLocators)))
    else
      None
  }

  /** On a transentreprise page the popup and the background extraction read
      the same fields. */
  lemma AnalyzePageAgreesWithExtraction(doc: Document)
    requires doc.hostname == "www.transentreprise.com"
    ensures AnalyzePage(doc).Some?
    ensures ExtractData(SiteConfig(Some("transentreprise")), doc).Some?
    ensures AnalyzePage(doc).value.listing == ExtractData(SiteConfig(Some("transentreprise")), doc).value
  {
  }

  /** The completeness gate the click handler applies before scoring: a record, and all six listing fields
      non-empty strings. The site is not checked. */
  predicate Complete(data: Option<PageRecord>)
    ensures Complete(data) <==>
              data.Some? && forall v :: v in Fields(data.value.listing) ==> v.Str? && v.s != []
  {
    && data.Some?
    && Truthy(data.value.listing.title)
    && Truthy(data.value.listing.location)
    && Truthy(data.value.listing.price)
    && Truthy(data.value.listing.revenue)
    && Truthy(data.value.listing.employees)
    && Truthy(data.value.listing.description)
  }

  /** The six fields the gate tests, in the order it tests them. */
  function Fields(l: Listing): seq<JsValue> {
    [l.title, l.location, l.price, l.revenue, l.employees, l.description]
  }

  /** A page on which a label field has no answering `dt` never passes the
      gate: that field is `null`. */
  lemma UnansweredLabelBlocks(doc: Document)
    requires doc.hostname in SiteIds
    requires || (forall q :: !Answers(doc.lists, "Prix", q))
             || (forall q :: !Answers(doc.lists, "C.A.", q))
             || (forall q :: !Answers(doc.lists, "Effectif", q))
    ensures !Complete(AnalyzePage(doc))
  {
    var r := AnalyzePage(doc).value.listing;
    assert r.price == LabelField(doc, Some("Prix"));
    assert r.revenue == LabelField(doc, Some("C.A."));
    assert r.employees == LabelField(doc, Some("Effectif"));
  }

  /** What the server's JSON gives as `score`: missing, `null`, or a number. */
  datatype ScoreField = Absent | NullScore | Number(value: int)

  /** The parsed JSON of a successful response. */
  datatype ReplyJson = ReplyJson(score: ScoreField, explanation: JsValue)

  /** What `fetch` to the server ends in: a rejected fetch and its message, a
      response that is not `ok` with its status text and body text, or an
      `ok` response and its JSON. */
  datatype ServerAnswer = Unreachable(message: string) | NotOk(statusText: string, text: string) | Ok(json: ReplyJson)

  /** The acceptance gate the click handler applies to the parsed answer: `score !== undefined` and a truthy
      explanation. */
  predicate Accepts(j: ReplyJson)
    ensures Accepts(j) <==> (j.score.Number? || j.score.NullScore?) && j.explanation.Str? && 0 < |j.explanation.s|
  {
    !j.score.Absent? && Truthy(j.explanation)
  }

  /** A stored analysis: the extracted record spread with the score and the
      explanation exactly as the server sent it. */
  datatype Entry = Entry(record: PageRecord, score: ScoreField, explanation: string)

  /** What the popup shows after a click. */
  datatype Shown = Incomplete | Failed(message: string) | Displayed(score: ScoreField, explanation: string)

  /** The result of one click: what is shown, the record sent to the server if
      one was sent, and the stored list of analyses. */
  datatype Round = Round(shown: Shown, sent: Option<PageRecord>, stored: Option<seq<Entry>>)

  const ExtractionError := "Erreur lors de l'extraction des données de la page. Certaines données sont manquantes."
  const AnalysisErrorPrefix := "Erreur lors de l'analyse de l'entreprise: "
  const NotOkPrefix := "La réponse du réseau n'était pas correcte: "
  const InvalidReply := "Données de réponse invalides de l'API."

  /** `result.analyses || []`. */
  function ReadAll(stored: Option<seq<Entry>>): (r: seq<Entry>)
    ensures stored.Some? ==> r == stored.value
    ensures stored.None? ==> r == []
  {
    stored.GetOr([])
  }

  /** `storeAnalysis`: the list written back is the one read with the new
      analysis pushed at its end. */
  function StoreAnalysis(stored: Option<seq<Entry>>, e: Entry): (r: seq<Entry>)
    ensures |r| == |ReadAll(stored)| + 1
    ensures r[..|ReadAll(stored)|] == ReadAll(stored)
    ensures r[|ReadAll(stored)|] == e
  {
    ReadAll(stored) + [e]
  }

  /** The message of the error the `try` block throws for an answer it does
      not accept. */
  function FailureMessage(answer: ServerAnswer): string {
    match answer
    case Unreachable(message) => message
    case NotOk(statusText, text) => NotOkPrefix + statusText + " - " + text
    case Ok(_) => InvalidReply
  }

  /** The click handler after the page analysis: `data` is what `analyzePage`
      returned and `send` stands for the POST to the scoring server. An
      incomplete record is never sent; an accepted answer is shown with its
      explanation sanitized and stored with it unsanitized; nothing is stored
      otherwise. */
  function Click(data: Option<PageRecord>, send: PageRecord -> ServerAnswer, stored: Option<seq<Entry>>): (r: Round)
    ensures r.sent.None? <==> !Complete(data)
    ensures r.sent.Some? ==> r.sent == data
    ensures r.shown.Incomplete? <==> !Complete(data)
    ensures r.shown.Displayed? <==> Complete(data) && send(data.value).Ok? && Accepts(send(data.value).json)
    ensures r.shown.Displayed? ==>
              && r.shown.score == send(data.value).json.score
              && r.shown.explanation == SanitizeExplanation(send(data.value).json.explanation.s)
              && r.stored == Some(ReadAll(stored) + [Entry(data.value, r.shown.score, send(data.value).json.explanation.s)])
    ensures !r.shown.Displayed? ==> r.stored == stored
    ensures r.shown.Failed? ==> StartsWith(r.shown.message, AnalysisErrorPrefix)
  {
    if !Complete(data) then
      Round(Incomplete, None, stored)
    else
      var record := data.value;
      var answer := send(record);
      if answer.Ok? && Accepts(answer.json) then
        var explanation := answer.json.explanation.s;
        Round(Displayed(answer.json.score, SanitizeExplanation(explanation)), Some(record),
              Some(StoreAnalysis(stored, Entry(record, answer.json.score, explanation))))
      else
        var message := AnalysisErrorPrefix + FailureMessage(answer);
        assert message[..|AnalysisErrorPrefix|] == AnalysisErrorPrefix;
        Round(Failed(message), Some(record), stored)
  }

  /** An `ok` answer with a score and a non-empty explanation is shown
      sanitized and appended to the history as sent. */
  lemma AcceptedAnswerStored(record: PageRecord, send: PageRecord -> ServerAnswer, stored: Option<seq<Entry>>,
                             score: ScoreField, explanation: string)
    requires Complete(Some(record))
    requires send(record) == Ok(ReplyJson(score, Str(explanation)))
    requires !score.Absent? && |explanation| > 0
    ensures var r := Click(Some(record), send, stored);
            && r.shown == Displayed(score, SanitizeExplanation(explanation))
            && r.stored == Some(ReadAll(stored) + [Entry(record, score, explanation)])
  {
  }

  /** Analyses stored one after another, each by its own `storeAnalysis`. */
  function StoreAll(stored: Option<seq<Entry>>, es: seq<Entry>): seq<Entry>
    decreases |es|
  {
    if |es| == 0 then ReadAll(stored) else StoreAll(Some(StoreAnalysis(stored, es[0])), es[1..])
  }

  /** Sequential appends keep every earlier analysis and add the new ones in
      order: the history is the list first read followed by the analyses. */
  lemma {:induction false} StoreAllAppends(stored: Option<seq<Entry>>, es: seq<Entry>)
    ensures StoreAll(stored, es) == ReadAll(stored) + es
    decreases |es|
  {
    if |es| > 0 {
      StoreAllAppends(Some(StoreAnalysis(stored, es[0])), es[1..]);
      assert ReadAll(stored) + [es[0]] + es[1..] == ReadAll(stored) + es;
    }
  }

  const Green := "#4CAF50"
  const Orange := "#FFA500"
  const Red := "#FF0000"

  /** `getScoreColor` on a number: green from 75, orange from 50, red below. */
  function ScoreColor(score: int): (c: string)
    ensures c == Green <==> score >= 75
    ensures c == Orange <==> 50 <= score < 75
    ensures c == Red <==> score < 50
  {
    if score >= 75 then Green else if score >= 50 then Orange else Red
  }

  /** `getScoreColor` on what a stored score can be: `null` compares as 0 and
      a missing score as `NaN`, so both are red. */
  function ColorOf(score: ScoreField): (c: string)
    ensures score.Number? ==> c == ScoreColor(score.value)
    ensures !score.Number? ==> c == Red
  {
    match score
    case Number(v) => ScoreColor(v)
    case NullScore => ScoreColor(0)
    case Absent => Red
  }

  /** The rank of a band colour, red lowest. */
  function Band(c: string): nat {
    if c == Green then 2 else if c == Orange then 1 else 0
  }

  /** A higher score never gets a lower band. */
  lemma ScoreColorMonotone(s: int, t: int)
    requires s <= t
    ensures Band(ScoreColor(s)) <= Band(ScoreColor(t))
  {
  }

  /** The label of the `i`-th point of the comparison and evolution charts. */
  function SeriesLabel(i: nat): string {
    "Analyse " + Decimal(i + 1)
  }

  /** `analyses.map((analysis, index) => \`Analyse ${index + 1}\`)`. */
  function Labels(history: seq<Entry>): (ls: seq<string>)
    ensures |ls| == |history|
    ensures forall i :: 0 <= i < |ls| ==> ls[i] == SeriesLabel(i)
    decreases |history|
  {
    if |history| == 0 then [] else Labels(history[..|history| - 1]) + [SeriesLabel(|history| - 1)]
  }

  /** `analyses.map(analysis => analysis.score)`. */
  function Scores(history: seq<Entry>): (ss: seq<ScoreField>)
    ensures |ss| == |history|
    ensures forall i :: 0 <= i < |ss| ==> ss[i] == history[i].score
    decreases |history|
  {
    if |history| == 0 then [] else Scores(history[..|history| - 1]) + [history[|history| - 1].score]
  }

  /** The bar colours of the comparison chart, one per score. */
  function BarColors(history: seq<Entry>): (cs: seq<string>)
    ensures |cs| == |history|
    ensures forall i :: 0 <= i < |cs| ==> cs[i] == ColorOf(history[i].score)
    decreases |history|
  {
    if |history| == 0 then [] else BarColors(history[..|history| - 1]) + [ColorOf(history[|history| - 1].score)]
  }

  /** No two points of a series share a label. */
  lemma LabelsDistinct(history: seq<Entry>, i: nat, j: nat)
    requires i < j < |history|
    ensures Labels(history)[i] != Labels(history)[j]
  {
    var ls := Labels(history);
    assert ls[i] == SeriesLabel(i) && ls[j] == SeriesLabel(j);
    SeriesLabelInjective(i, j);
  }

  /** Distinct positions get distinct chart labels. */
  lemma SeriesLabelInjective(m: nat, n: nat)
    requires m != n
    ensures SeriesLabel(m) != SeriesLabel(n)
  {
    if SeriesLabel(m) == SeriesLabel(n) {
      PrefixCancel("Analyse ", Decimal(m + 1), Decimal(n + 1));
      DecimalInjective(m + 1, n + 1);
    }
  }

  /** A common prefix can be cancelled. */
  lemma PrefixCancel(p: string, x: string, y: string)
    requires p + x == p + y
    ensures x == y
  {
    assert x == (p + x)[|p|..];
    assert y == (p + y)[|p|..];
  }

  /** Storing an analysis extends each series by one point, for the new
      analysis, and leaves the earlier points as they were. */
  lemma SeriesAfterStore(stored: Option<seq<Entry>>, e: Entry)
    ensures var before := ReadAll(stored);
            var after := StoreAnalysis(stored, e);
            && Labels(after) == Labels(before) + [SeriesLabel(|before|)]
            && Scores(after) == Scores(before) + [e.score]
            && BarColors(after) == BarColors(before) + [ColorOf(e.score)]
  {
    var before := ReadAll(stored);
    var after := StoreAnalysis(stored, e);
    assert after[..|after| - 1] == before;
  }
}

=== FILE: route.dfy ===
/** server.js: the `/analyze` route — the request it reads, the site
    configuration gate, the prompt it sends to the language model, and the
    three kinds of response it can give. */
module Route {
  import opened Wrappers
  import opened Text
  import opened Numerals
  import opened Markup
  import opened Js
  import opened Server

  /** The JSON body of a scoring request, as destructured by the handler. */
  datatype ScoreRequest = ScoreRequest(
    site: JsValue,
    title: JsValue,
    location: JsValue,
    price: JsValue,
    revenue: JsValue,
    employees: JsValue,
    description: JsValue)

  /** The text of the prompt before its first field line. */
  const PromptIntro := "Évaluez le potentiel d'acquisition de l'entreprise suivante. Fournissez une note de 0 à 100 et une explication détaillée en HTML :\n\n"

  /** The text of the prompt after its last field line: the requested answer
      format, which opens with `Note: [0-100]`. */
  const PromptOutro := "  \n  Format de réponse attendu :\n  Note: [0-100]\n  <h2><strong>Explication:</strong></h2>\n    <div>\n      [explication détaillée ici]\n    </div>"

  /** The labels of the six field lines, in prompt order. */
  const FieldLabels := ["Description", "Titre", "Localisation", "Prix", "Chiffre d'affaires", "Employés"]

  /** The six interpolated field values, in prompt order. */
  function FieldValues(req: ScoreRequest): (vs: seq<string>)
    ensures |vs| == |FieldLabels|
  {
    [Interpolate(req.description), Interpolate(req.title), Interpolate(req.location),
     Interpolate(req.price), Interpolate(req.revenue), Interpolate(req.employees)]
  }

  /** One field line `  <label> : <value>` with its line break. */
  function FieldLine(labelText: string, value: string): string {
    "  " + labelText + " : " + value + "\n"
  }

  /** Field lines for paired labels and values, one after the other. */
  function FieldLines(labels: seq<string>, values: seq<string>): string
    requires |labels| == |values|
    decreases |labels|
  {
    if |labels| == 0 then [] else FieldLine(labels[0], values[0]) + FieldLines(labels[1..], values[1..])
  }

  /** The handler's `prompt` template literal: the intro, the lines
      `  Description : ${description}` through `  Employés : ${employees}`,
      then the requested answer format. */
  function Prompt(req: ScoreRequest): string {
    PromptIntro + FieldLines(FieldLabels, FieldValues(req)) + PromptOutro
  }

  /** The prompt opens with the instructions and closes with the requested
      answer format, whatever the fields hold. */
  lemma PromptFramed(req: ScoreRequest)
    ensures |PromptIntro| + |PromptOutro| <= |Prompt(req)|
    ensures Prompt(req)[..|PromptIntro|] == PromptIntro
    ensures Prompt(req)[|Prompt(req)| - |PromptOutro|..] == PromptOutro
  {
    Enclosed(PromptIntro, FieldLines(FieldLabels, FieldValues(req)), PromptOutro);
  }

  /** `a` and `c` are the two ends of `a + b + c`. */
  lemma Enclosed(a: string, b: string, c: string)
    ensures (a + b + c)[..|a|] == a
    ensures (a + b + c)[|a + b + c| - |c|..] == c
  {
  }

  /** Where the `k`-th line starts in `FieldLines(labels, values)`. */
  function LineStart(labels: seq<string>, values: seq<string>, k: nat): (o: nat)
    requires |labels| == |values| && k < |labels|
    ensures o + |FieldLine(labels[k], values[k])| <= |FieldLines(labels, values)|
    decreases k
  {
    if k == 0 then 0
    else |FieldLine(labels[0], values[0])| + LineStart(labels[1..], values[1..], k - 1)
  }

  /** In a run of field lines, the `k`-th line — its label, ` : ` and its value
      verbatim — sits at its start offset. */
  lemma {:induction false} LineHoldsField(labels: seq<string>, values: seq<string>, k: nat)
    requires |labels| == |values| && k < |labels|
    ensures OccursAt(FieldLines(labels, values), FieldLine(labels[k], values[k]), LineStart(labels, values, k))
    decreases k
  {
    var line := FieldLine(labels[0], values[0]);
    var rest := FieldLines(labels[1..], values[1..]);
    if k == 0 {
      assert OccursAt(line, line, 0);
      OccursInLeft(line, rest, line, 0);
    } else {
      LineHoldsField(labels[1..], values[1..], k - 1);
      OccursInRight(line, rest, FieldLine(labels[k], values[k]), LineStart(labels[1..], values[1..], k - 1));
    }
  }

  /** Lines come in the order of the pairs: line `j` ends before line `k` starts. */
  lemma {:induction false} LinesInOrder(labels: seq<string>, values: seq<string>, j: nat, k: nat)
    requires |labels| == |values| && j < k < |labels|
    ensures LineStart(labels, values, j) + |FieldLine(labels[j], values[j])| <= LineStart(labels, values, k)
    decreases j
  {
    if j > 0 {
      LinesInOrder(labels[1..], values[1..], j - 1, k - 1);
    }
  }

  /** Text framed by an intro and an outro keeps its occurrences, shifted by
      the intro. */
  lemma Framed(intro: string, lines: string, outro: string, sub: string, i: nat)
    requires OccursAt(lines, sub, i)
    ensures OccursAt(intro + lines + outro, sub, |intro| + i)
  {
    OccursInLeft(lines, outro, sub, i);
    OccursInRight(intro, lines + outro, sub, i);
    assert intro + lines + outro == intro + (lines + outro);
  }

  /** Field lines framed by an intro and an outro keep their lines, shifted
      by the intro, in order. */
  lemma FramedLines(intro: string, outro: string, labels: seq<string>, values: seq<string>, j: nat, k: nat)
    requires |labels| == |values| && j < k < |labels|
    ensures var text := intro + FieldLines(labels, values) + outro;
            && OccursAt(text, FieldLine(labels[j], values[j]), |intro| + LineStart(labels, values, j))
            && OccursAt(text, FieldLine(labels[k], values[k]), |intro| + LineStart(labels, values, k))
            && LineStart(labels, values, j) + |FieldLine(labels[j], values[j])| <= LineStart(labels, values, k)
  {
    var lines := FieldLines(labels, values);
    LineHoldsField(labels, values, j);
    Framed(intro, lines, outro, FieldLine(labels[j], values[j]), LineStart(labels, values, j));
    LineHoldsField(labels, values, k);
    Framed(intro, lines, outro, FieldLine(labels[k], values[k]), LineStart(labels, values, k));
    LinesInOrder(labels, values, j, k);
  }

  /** Each of the six fields appears verbatim in the prompt on its own labelled
      line, and the line of field `j` ends before that of field `k` when
      `j < k` in the order description, title, location, price, revenue,
      employees. */
  lemma PromptCarriesFields(req: ScoreRequest, j: nat, k: nat)
    requires j < k < |FieldLabels|
    ensures var vs := FieldValues(req);
            && OccursAt(Prompt(req), FieldLine(FieldLabels[j], vs[j]), |PromptIntro| + LineStart(FieldLabels, vs, j))
            && OccursAt(Prompt(req), FieldLine(FieldLabels[k], vs[k]), |PromptIntro| + LineStart(FieldLabels, vs, k))
            && LineStart(FieldLabels, vs, j) + |FieldLine(FieldLabels[j], vs[j])| <= LineStart(FieldLabels, vs, k)
  {
    FramedLines(PromptIntro, PromptOutro, FieldLabels, FieldValues(req), j, k);
  }

  /** The error of the configuration gate, when `loadConfig` finds nothing. */
  const InvalidSite := "Invalid site configuration"

  /** The error the handler's `catch` block answers with after the gate. */
  const AnalysisFailed := "Erreur lors de l'analyse de l'entreprise."

  /** The detail thrown when `score` is `null`. */
  const NoScore := "Impossible de parser la note à partir de la réponse de l'IA."

  /** The detail thrown when the API answer has no `response.data.choices`. */
  const NoChoices := "Réponse invalide de l'API OpenAI."

  /** The detail when `choices` is an empty array: Node's message for reading
      `message` off `choices[0]`, which is `undefined`. */
  const EmptyChoices := "Cannot read properties of undefined (reading 'message')"

  /** What the chat-completion call gives back: the contents of its choices,
      an answer without `data.choices`, or a rejected call and its message. */
  datatype Completion = Choices(contents: seq<string>) | MissingChoices | CallFailed(message: string)

  /** The JSON body of a response. */
  datatype Body = ScoreBody(score: nat, explanation: string) | ErrorBody(error: string, details: Option<string>)

  /** A response, and the prompt the handler sent to the model, if it sent one. */
  datatype Outcome = Outcome(status: nat, body: Body, asked: Option<string>)

  /** The text the handler goes on to parse, or the error detail it fails with. */
  datatype ChoiceText = Content(text: string) | Failure(detail: string)

  /** `response.data.choices[0].message.content`, or why it cannot be read:
      no `choices`, an empty `choices` array, or a failed call. */
  function FirstContent(c: Completion): (r: ChoiceText)
    ensures r.Content? <==> c.Choices? && |c.contents| > 0
    ensures r.Content? ==> r.text == c.contents[0]
    ensures c.CallFailed? ==> r == Failure(c.message)
  {
    match c
    case Choices(contents) => if |contents| > 0 then Content(contents[0]) else Failure(EmptyChoices)
    case MissingChoices => Failure(NoChoices)
    case CallFailed(message) => Failure(message)
  }

  /** The parse of the first choice, if there is one and it has a score. */
  function Replied(c: Completion): (r: Option<Scored>)
    ensures r.Some? ==> c.Choices? && |c.contents| > 0 && r == ParseReply(c.contents[0])
    ensures c.Choices? && |c.contents| > 0 ==> r == ParseReply(c.contents[0])
  {
    match FirstContent(c)
    case Content(text) => ParseReply(text)
    case Failure(_) => None
  }

  /** The `/analyze` handler. `knownSites` stands for the configuration files
      that `loadConfig` finds (`configs/${site}.js`), and `complete` for the
      language model, called with the prompt. An unknown site is refused with
      400 before any prompt is built; otherwise the first choice is parsed,
      giving 200 with the score and explanation, or 500 with the reason. */
  function Analyze(req: ScoreRequest, knownSites: set<string>, complete: string -> Completion): (o: Outcome)
    ensures o.asked.None? <==> Interpolate(req.site) !in knownSites
    ensures o.asked.Some? ==> o.asked.value == Prompt(req)
    ensures o.status == 400 <==> o.asked.None?
    ensures o.status == 400 ==> o.body == ErrorBody(InvalidSite, None)
    ensures o.status == 200 <==> o.asked.Some? && Replied(complete(Prompt(req))).Some?
    ensures o.status == 200 ==> o.body == ScoreBody(Replied(complete(Prompt(req))).value.score,
                                                    Replied(complete(Prompt(req))).value.explanation)
    ensures o.status != 200 && o.status != 400 ==> o.status == 500 && o.body.ErrorBody? && o.body.error == AnalysisFailed
  {
    if Interpolate(req.site) !in knownSites then
      Outcome(400, ErrorBody(InvalidSite, None), None)
    else
      var prompt := Prompt(req);
      match FirstContent(complete(prompt))
      case Failure(detail) => Outcome(500, ErrorBody(AnalysisFailed, Some(detail)), Some(prompt))
      case Content(text) =>
        match ParseReply(text)
        case Some(Scored(score, explanation)) => Outcome(200, ScoreBody(score, explanation), Some(prompt))
        case None => Outcome(500, ErrorBody(AnalysisFailed, Some(NoScore)), Some(prompt))
  }

  /** A first choice in the requested format — `Note: <n>`, a line break, an
      explanation — is answered with 200, the score `n` and the cleaned
      explanation; the other choices are ignored. */
  lemma FormattedReplyScored(req: ScoreRequest, knownSites: set<string>, complete: string -> Completion,
                             n: nat, body: string, others: seq<string>)
    requires Interpolate(req.site) in knownSites
    requires IsTrimmed(body)
    requires complete(Prompt(req)) == Choices(["Note: " + Decimal(n) + "\n" + body] + others)
    ensures Analyze(req, knownSites, complete) == Outcome(200, ScoreBody(n, CleanExplanation(body)), Some(Prompt(req)))
  {
    ReplyRoundTrip(n, body);
  }

  /** A first choice that never mentions `Note:` is answered with 500 and the
      "cannot parse the score" detail; there is no default score. */
  lemma UnscoredReplyFails(req: ScoreRequest, knownSites: set<string>, complete: string -> Completion,
                           first: string, others: seq<string>)
    requires Interpolate(req.site) in knownSites
    requires !Contains(first, "Note:")
    requires complete(Prompt(req)) == Choices([first] + others)
    ensures Analyze(req, knownSites, complete) == Outcome(500, ErrorBody(AnalysisFailed, Some(NoScore)), Some(Prompt(req)))
  {
    NoNoteNoScore(first);
  }
}

=== FILE: server.dfy ===
/** server.js: the parse of the language model's free-form reply into a score
    and an explanation, as the `/analyze` handler does it. */
module Server {
  import opened Wrappers
  import opened Text
  import opened Numerals
  import opened Markup
  import opened Js

  /** The end of the run of characters satisfying `p` that starts at `k`. */
  function SpanEnd(s: string, k: nat, p: char -> bool): (e: nat)
    requires k <= |s|
    ensures k <= e <= |s|
    ensures forall i :: k <= i < e ==> p(s[i])
    ensures e == |s| || !p(s[e])
    decreases |s| - k
  {
    if k < |s| && p(s[k]) then SpanEnd(s, k + 1, p) else k
  }

  /** A run is determined by where it starts: any `e` with the run's two
      properties is the one `SpanEnd` finds. */
  lemma SpanEndUnique(s: string, k: nat, p: char -> bool, e: nat)
    requires k <= e <= |s|
    requires forall i :: k <= i < e ==> p(s[i])
    requires e == |s| || !p(s[e])
    ensures SpanEnd(s, k, p) == e
  {
  }

  /** The pattern `/Note:\s*(\d+)/` matches at offset `i`: the literal `Note:`
      (case-sensitive), optional white space, then at least one digit. */
  predicate NoteAt(s: string, i: nat) {
    && i + 5 <= |s|
    && s[i..i + 5] == "Note:"
    && var d := SpanEnd(s, i + 5, IsSpace); d < |s| && IsDigit(s[d])
  }

  /** The leftmost match of the pattern, which both regular expressions of the
      handler find. */
  ghost predicate LeftmostNote(s: string, m: nat) {
    NoteAt(s, m) && forall j: nat :: j < m ==> !NoteAt(s, j)
  }

  /** The first match at or after `from`. */
  function FindNote(s: string, from: nat): (r: Option<nat>)
    ensures r.Some? ==> from <= r.value && NoteAt(s, r.value)
    ensures r.Some? ==> forall j: nat :: from <= j < r.value ==> !NoteAt(s, j)
    ensures r.None? ==> forall j: nat :: from <= j ==> !NoteAt(s, j)
    decreases |s| - from
  {
    if |s| < from + 5 then None
    else if NoteAt(s, from) then Some(from)
    else FindNote(s, from + 1)
  }

  /** Where the digits of the match at `m` start. */
  function DigitsStart(s: string, m: nat): (d: nat)
    requires NoteAt(s, m)
    ensures m + 5 <= d < |s| && IsDigit(s[d])
  {
    SpanEnd(s, m + 5, IsSpace)
  }

  /** Where the greedy `\d+` of the match at `m` ends. */
  function DigitsEnd(s: string, m: nat): (e: nat)
    requires NoteAt(s, m)
    ensures DigitsStart(s, m) < e <= |s|
    ensures AllDigits(s[DigitsStart(s, m)..e])
    ensures e == |s| || !IsDigit(s[e])
  {
    var d := DigitsStart(s, m);
    var e := SpanEnd(s, d, IsDigit);
    assert forall i :: 0 <= i < e - d ==> s[d..e][i] == s[d + i];
    e
  }

  /** Where `/Note:\s*\d+\s*\/` — the segment the handler deletes — ends. */
  function SegmentEnd(s: string, m: nat): (e: nat)
    requires NoteAt(s, m)
    ensures DigitsEnd(s, m) <= e <= |s|
    ensures forall i :: DigitsEnd(s, m) <= i < e ==> IsSpace(s[i])
    ensures e == |s| || !IsSpace(s[e])
  {
    SpanEnd(s, DigitsEnd(s, m), IsSpace)
  }

  /** A successfully parsed reply. */
  datatype Scored = Scored(score: nat, explanation: string)

  /** The handler's parse: trim the model's reply, read the number after the
      leftmost `Note:` (`parseInt` of the digit run, with no range check),
      delete that `Note:` segment with the white space after it, trim what is
      left and clean its markdown. `None` is the case `score === null`: the reply has
      no `Note:` followed by a number. */
  function ParseReply(content: string): (r: Option<Scored>)
    ensures r.None? <==> forall j: nat :: !NoteAt(Trim(content), j)
  {
    var t := Trim(content);
    match FindNote(t, 0)
    case None => None
    case Some(m) =>
      Some(Scored(
        DigitsValue(t[DigitsStart(t, m)..DigitsEnd(t, m)]),
        CleanExplanation(Trim(t[..m] + t[SegmentEnd(t, m)..]))))
  }

  /** What a reply with a match parses to, stated against the leftmost match
      itself rather than the search that finds it. */
  lemma ParseReplyLeftmost(content: string, m: nat)
    requires LeftmostNote(Trim(content), m)
    ensures var t := Trim(content);
            ParseReply(content) == Some(Scored(
              DigitsValue(t[DigitsStart(t, m)..DigitsEnd(t, m)]),
              CleanExplanation(Trim(t[..m] + t[SegmentEnd(t, m)..]))))
  {
    var t := Trim(content);
    assert FindNote(t, 0).value == m;
  }

  /** A text that opens with `Note: ` and a digit run has its leftmost match
      at offset 0, and the digits the pattern captures are exactly that run. */
  lemma NoteAtStart(digits: string, tail: string)
    requires 0 < |digits| && AllDigits(digits)
    requires |tail| == 0 || !IsDigit(tail[0])
    ensures var t := "Note: " + digits + tail;
            && LeftmostNote(t, 0)
            && DigitsStart(t, 0) == 6
            && DigitsEnd(t, 0) == 6 + |digits|
            && t[6..6 + |digits|] == digits
  {
    var t := "Note: " + digits + tail;
    assert t[0..5] == "Note:";
    assert t[5] == ' ' && t[6] == digits[0];
    SpanEndUnique(t, 5, IsSpace, 6);
    assert NoteAt(t, 0);
    var de := 6 + |digits|;
    assert forall i :: 6 <= i < de ==> t[i] == digits[i - 6];
    assert de < |t| ==> t[de] == tail[0];
    SpanEndUnique(t, 6, IsDigit, de);
    assert t[6..de] == digits;
  }

  /** The white-space run after `front` is exactly `ws` when what follows `ws`
      does not start with white space. */
  lemma SpanOverSpaces(front: string, ws: string, rest: string)
    requires AllSpaces(ws)
    requires |rest| == 0 || !IsSpace(rest[0])
    ensures SpanEnd(front + ws + rest, |front|, IsSpace) == |front| + |ws|
  {
    var s := front + ws + rest;
    var e := |front| + |ws|;
    assert forall i :: |front| <= i < e ==> s[i] == ws[i - |front|];
    assert e < |s| ==> s[e] == rest[0];
    SpanEndUnique(s, |front|, IsSpace, e);
  }

  /** Where the pieces of `Note: <digits><ws><rest>` lie for the pattern:
      the leftmost match at 0, its digits, and the end of the deleted segment. */
  lemma LeadingNoteShape(t: string, digits: string, ws: string, rest: string)
    requires t == "Note: " + digits + ws + rest
    requires 0 < |digits| && AllDigits(digits)
    requires AllSpaces(ws)
    requires |rest| == 0 || !IsSpace(rest[0])
    requires |ws| > 0 || |rest| == 0
    ensures LeftmostNote(t, 0)
    ensures t[DigitsStart(t, 0)..DigitsEnd(t, 0)] == digits
    ensures t[..0] + t[SegmentEnd(t, 0)..] == rest
  {
    var tail := ws + rest;
    assert t == "Note: " + digits + tail;
    if |ws| > 0 {
      assert tail[0] == ws[0];
    } else {
      assert tail == [];
    }
    NoteAtStart(digits, tail);
    var se := 6 + |digits| + |ws|;
    assert t == ("Note: " + digits) + ws + rest;
    SpanOverSpaces("Note: " + digits, ws, rest);
    assert SegmentEnd(t, 0) == se;
    assert t[se..] == rest;
  }

  /** A trimmed reply `Note: <digits><ws><rest>`, where `ws` is the white space
      the deleted segment swallows, scores the digits and explains `rest`. */
  lemma ParseLeadingNote(t: string, digits: string, ws: string, rest: string)
    requires t == "Note: " + digits + ws + rest
    requires 0 < |digits| && AllDigits(digits)
    requires AllSpaces(ws)
    requires IsTrimmed(rest)
    requires |ws| > 0 || |rest| == 0
    requires IsTrimmed(t)
    ensures ParseReply(t) == Some(Scored(DigitsValue(digits), CleanExplanation(rest)))
  {
    LeadingNoteShape(t, digits, ws, rest);
    TrimTrimmed(t);
    ParseReplyLeftmost(t, 0);
    TrimTrimmed(rest);
  }

  /** The reply format the prompt asks for parses back to what it carries:
      `Note: <n>`, a line break, then an explanation body without surrounding
      white space gives the score `n` and the cleaned body. */
  lemma ReplyRoundTrip(n: nat, body: string)
    requires IsTrimmed(body)
    ensures ParseReply("Note: " + Decimal(n) + "\n" + body) == Some(Scored(n, CleanExplanation(body)))
    ensures '*' !in body && '#' !in body ==> ParseReply("Note: " + Decimal(n) + "\n" + body) == Some(Scored(n, body))
  {
    DecimalRoundTrip(n);
    if |body| > 0 {
      RoundTripWithBody("Note: " + Decimal(n) + "\n" + body, Decimal(n), body);
    } else {
      RoundTripBare("Note: " + Decimal(n) + "\n" + body, Decimal(n));
    }
  }

  /** The round trip when there is an explanation after the line break. */
  lemma RoundTripWithBody(raw: string, digits: string, body: string)
    requires raw == "Note: " + digits + "\n" + body
    requires 0 < |digits| && AllDigits(digits)
    requires IsTrimmed(body) && |body| > 0
    ensures ParseReply(raw) == Some(Scored(DigitsValue(digits), CleanExplanation(body)))
  {
    assert raw[|raw| - 1] == body[|body| - 1];
    assert raw[0] == 'N';
    ParseLeadingNote(raw, digits, "\n", body);
  }

  /** The round trip when the reply is only the score line: the trim drops
      the line break first. */
  lemma RoundTripBare(raw: string, digits: string)
    requires raw == "Note: " + digits + "\n"
    requires 0 < |digits| && AllDigits(digits)
    ensures ParseReply(raw) == Some(Scored(DigitsValue(digits), CleanExplanation([])))
  {
    var head := "Note: " + digits;
    assert IsTrimmed(head) by {
      assert head[|head| - 1] == digits[|digits| - 1];
    }
    BareHead(head, digits);
    TrimmedBeforeNewline(raw, head);
    ParseReplyTrim(raw);
  }

  /** A reply that is just `Note: <digits>` scores the digits and explains nothing. */
  lemma BareHead(head: string, digits: string)
    requires head == "Note: " + digits
    requires 0 < |digits| && AllDigits(digits)
    requires IsTrimmed(head)
    ensures ParseReply(head) == Some(Scored(DigitsValue(digits), CleanExplanation([])))
  {
    assert head == "Note: " + digits + [] + [];
    ParseLeadingNote(head, digits, [], []);
  }

  /** Trimming a trimmed line followed by a line break gives the line. */
  lemma TrimmedBeforeNewline(raw: string, head: string)
    requires raw == head + "\n"
    requires IsTrimmed(head)
    ensures Trim(raw) == head
  {
    assert raw == [] + head + "\n";
    TrimUnique([], head, "\n");
  }

  /** The parse sees only the trimmed reply. */
  lemma ParseReplyTrim(content: string)
    ensures ParseReply(Trim(content)) == ParseReply(content)
  {
    TrimTrimmed(Trim(content));
  }

  /** A reply whose explanation opens with a `### ` heading line: the score
      is read and only the heading marker is dropped from the explanation. */
  lemma HeadingReply(n: nat, text: string)
    requires 0 < |text| && IsTrimmed(text)
    requires '*' !in text && '#' !in text
    ensures ParseReply("Note: " + Decimal(n) + "\n### " + text) == Some(Scored(n, text))
  {
    var body := "### " + text;
    assert IsTrimmed(body) by {
      assert body[|body| - 1] == text[|text| - 1];
    }
    assert "Note: " + Decimal(n) + "\n### " + text == "Note: " + Decimal(n) + "\n" + body;
    ReplyRoundTrip(n, body);
    CleanHeadingLine(text);
  }

  /** The reply of the listing example: a score line, a markdown heading line,
      a sentence. */
  lemma ExampleReply(reply: string, text: string)
    requires text == "Explication\nBon potentiel."
    requires reply == "Note: 72\n### " + text
    ensures ParseReply(reply) == Some(Scored(72, text))
  {
    assert Decimal(72) == "72";
    assert "Note: " + "72" + "\n### " == "Note: 72\n### ";
    ExampleTextPlain(text);
    HeadingReply(72, text);
  }

  /** The explanation of that reply is trimmed and free of markdown markers. */
  lemma ExampleTextPlain(text: string)
    requires text == "Explication\nBon potentiel."
    ensures 0 < |text| && IsTrimmed(text) && '*' !in text && '#' !in text
  {
    assert forall i :: 0 <= i < |text| ==> text[i] != '*' && text[i] != '#';
  }

  /** No range check: a score above 100 is passed through as it is. */
  lemma ScoreAboveHundredAccepted()
    ensures ParseReply("Note: 150") == Some(Scored(150, ""))
  {
    assert "Note: 150" == "Note: " + "150" + [] + [];
    assert DigitsValue("150") == 150 by {
      assert "150"[..2] == "15";
      assert "15"[..1] == "1";
    }
    ParseLeadingNote("Note: 150", "150", [], []);
  }

  /** A reply that never mentions `Note:` has no score. */
  lemma NoNoteNoScore(content: string)
    requires !Contains(content, "Note:")
    ensures ParseReply(content).None?
  {
    NoNoteInTrimmed(content);
  }

  /** Trimming only removes characters, so a match in the trimmed reply is an
      occurrence of `Note:` in the reply itself. */
  lemma NoNoteInTrimmed(content: string)
    requires !Contains(content, "Note:")
    ensures forall j: nat :: !NoteAt(Trim(content), j)
  {
    var t := Trim(content);
    var a := LeadingSpaces(content);
    var b := a + |t|;
    assert t == content[a..b];
    ContainsAt(content, "Note:");
    forall j: nat | NoteAt(t, j) ensures OccursAt(content, "Note:", a + j) {
      assert OccursAt(t, "Note:", j);
      OccursInSlice(content, a, b, "Note:", j);
    }
  }
}

=== FILE: text.dfy ===
/** Character classes and the string operations the extension and the scoring
    server rely on: `trim`, `includes`, and the `\s` / `\d` regular-expression classes. */
module Text {

  /** ECMAScript's WhiteSpace and LineTerminator code points: the set that both
      `String.prototype.trim` and the regular-expression class `\s` use. */
  predicate IsSpace(c: char) {
    || c == ' ' || c == '\t' || c == '\n' || c == '\r'
    || c == '\U{000B}' || c == '\U{000C}'
    || c == '\U{00A0}' || c == '\U{1680}'
    || ('\U{2000}' <= c <= '\U{200A}')
    || c == '\U{2028}' || c == '\U{2029}'
    || c == '\U{202F}' || c == '\U{205F}' || c == '\U{3000}' || c == '\U{FEFF}'
  }

  /** The regular-expression class `\d`: ASCII digits only. */
  predicate IsDigit(c: char) {
    '0' <= c <= '9'
  }

  predicate AllSpaces(s: string) {
    forall i :: 0 <= i < |s| ==> IsSpace(s[i])
  }

  /** `s` has nothing for `trim` to remove. */
  predicate IsTrimmed(s: string) {
    |s| == 0 || (!IsSpace(s[0]) && !IsSpace(s[|s| - 1]))
  }

  /** The number of leading white-space characters of `s`. */
  function LeadingSpaces(s: string): (k: nat)
    ensures k <= |s|
    ensures AllSpaces(s[..k])
    ensures k == |s| || !IsSpace(s[k])
  {
    if |s| > 0 && IsSpace(s[0]) then
      var k' := LeadingSpaces(s[1..]);
      assert s[1..][..k'] == s[1..k' + 1];
      1 + k'
    else
      0
  }

  /** The number of trailing white-space characters of `s`. */
  function TrailingSpaces(s: string): (k: nat)
    ensures k <= |s|
    ensures AllSpaces(s[|s| - k..])
    ensures k == |s| || !IsSpace(s[|s| - k - 1])
  {
    if |s| > 0 && IsSpace(s[|s| - 1]) then
      var k' := TrailingSpaces(s[..|s| - 1]);
      assert s[..|s| - 1][|s| - 1 - k'..] == s[|s| - 1 - k'..|s| - 1];
      1 + k'
    else
      0
  }

  /** `String.prototype.trim`: drops white space at both ends. The result is the
      slice of `s` that starts at its first non-space character, everything cut
      off is white space, and the result has nothing left to trim. */
  function Trim(s: string): (r: string)
    ensures LeadingSpaces(s) + |r| <= |s|
    ensures r == s[LeadingSpaces(s)..LeadingSpaces(s) + |r|]
    ensures AllSpaces(s[LeadingSpaces(s) + |r|..])
    ensures IsTrimmed(r)
  {
    var a := LeadingSpaces(s);
    var rest := s[a..];
    var b := TrailingSpaces(rest);
    var r := rest[..|rest| - b];
    assert r == s[a..a + |r|];
    assert rest[|rest| - b..] == s[a + |r|..];
    r
  }

  /** Leading white space followed by a non-space (or nothing) is exactly what
      `LeadingSpaces` counts. */
  lemma {:induction false} LeadingSpacesOf(front: string, rest: string)
    requires AllSpaces(front)
    requires |rest| == 0 || !IsSpace(rest[0])
    ensures LeadingSpaces(front + rest) == |front|
  {
    if |front| > 0 {
      assert (front + rest)[1..] == front[1..] + rest;
      LeadingSpacesOf(front[1..], rest);
    }
  }

  /** Trailing white space after a non-space (or nothing) is exactly what
      `TrailingSpaces` counts. */
  lemma {:induction false} TrailingSpacesOf(rest: string, back: string)
    requires AllSpaces(back)
    requires |rest| == 0 || !IsSpace(rest[|rest| - 1])
    ensures TrailingSpaces(rest + back) == |back|
  {
    if |back| > 0 {
      var s := rest + back;
      assert s[..|s| - 1] == rest + back[..|back| - 1];
      TrailingSpacesOf(rest, back[..|back| - 1]);
    }
  }

  /** Trim is determined by its characterisation: whatever white space surrounds
      a trimmed core, trimming returns exactly that core. */
  lemma TrimUnique(front: string, core: string, back: string)
    requires AllSpaces(front) && AllSpaces(back) && IsTrimmed(core)
    ensures Trim(front + core + back) == core
  {
    var s := front + core + back;
    if |core| == 0 {
      assert s == (front + back) + [];
      LeadingSpacesOf(front + back, []);
      TrailingSpacesOf([], []);
    } else {
      assert s == front + (core + back);
      LeadingSpacesOf(front, core + back);
      assert s[|front|..] == core + back;
      TrailingSpacesOf(core, back);
      assert (core + back)[..|core|] == core;
    }
  }

  /** Trimming a string that is already trimmed changes nothing. */
  lemma TrimTrimmed(s: string)
    requires IsTrimmed(s)
    ensures Trim(s) == s
  {
    TrimUnique([], s, []);
    assert [] + s + [] == s;
  }

  /** `s` begins with `p`. */
  predicate StartsWith(s: string, p: string) {
    |p| <= |s| && s[..|p|] == p
  }

  /** `String.prototype.includes`: `sub` occurs somewhere in `s`. */
  predicate Contains(s: string, sub: string)
    decreases |s|
  {
    StartsWith(s, sub) || (|s| > 0 && Contains(s[1..], sub))
  }

  /** `sub` occurs in `s` at offset `i`. */
  predicate OccursAt(s: string, sub: string, i: nat) {
    i + |sub| <= |s| && s[i..i + |sub|] == sub
  }

  /** `Contains` agrees with the positional reading of "occurs in". */
  lemma {:induction false} ContainsAt(s: string, sub: string)
    ensures Contains(s, sub) <==> exists i: nat :: OccursAt(s, sub, i)
    decreases |s|
  {
    if StartsWith(s, sub) {
      assert OccursAt(s, sub, 0);
    } else if |s| > 0 {
      ContainsAt(s[1..], sub);
      forall i: nat | OccursAt(s[1..], sub, i)
        ensures OccursAt(s, sub, i + 1)
      {
        assert s[1..][i..i + |sub|] == s[i + 1..i + 1 + |sub|];
      }
      forall i: nat | 0 < i && OccursAt(s, sub, i)
        ensures OccursAt(s[1..], sub, i - 1)
      {
        assert s[1..][i - 1..i - 1 + |sub|] == s[i..i + |sub|];
      }
      assert !OccursAt(s, sub, 0);
    }
  }

  /** An occurrence in the right part of a concatenation is an occurrence in
      the whole, shifted by the left part's length. */
  lemma OccursInRight(a: string, b: string, sub: string, i: nat)
    requires OccursAt(b, sub, i)
    ensures OccursAt(a + b, sub, |a| + i)
  {
    assert (a + b)[|a| + i..|a| + i + |sub|] == b[i..i + |sub|];
  }

  /** An occurrence in the left part of a concatenation is an occurrence in the whole. */
  lemma OccursInLeft(a: string, b: string, sub: string, i: nat)
    requires OccursAt(a, sub, i)
    ensures OccursAt(a + b, sub, i)
  {
    assert (a + b)[i..i + |sub|] == a[i..i + |sub|];
  }

  /** An occurrence in a slice is an occurrence in the whole, shifted by the
      slice's start. */
  lemma OccursInSlice(s: string, a: nat, b: nat, sub: string, j: nat)
    requires a <= b <= |s|
    requires OccursAt(s[a..b], sub, j)
    ensures OccursAt(s, sub, a + j)
  {
    var t := s[a..b];
    forall k | 0 <= k < |sub| ensures s[a + j + k] == sub[k] {
      assert t[j..j + |sub|][k] == t[j + k] == s[a + j + k];
    }
    assert s[a + j..a + j + |sub|] == sub;
  }
}

=== FILE: wrappers.dfy ===
/** Optional values, standing in for JavaScript's `null` / `undefined` results. */
module Wrappers {

  datatype Option<+T> = None | Some(value: T) {

    /** The wrapped value, or `default` when there is none (JavaScript's `x || default`). */
    function GetOr(default: T): T {
      match this
      case Some(v) => v
      case None => default
    }
  }
}
